=== FILE: README.md ===
# Serverless two-browser chat: a Dafny model

The chat client connects two browsers over a WebRTC data channel without a
signalling server. The negotiation payloads (an offer, then an answer) travel
out of band, as QR codes or as the fragment of a shareable link. This project
models the parts of the client that make decisions:

- the session manager `WebRTCManager` (`js/webrtc.js`): its connection fields,
  how it builds the offer and answer payloads, the bounded wait for address
  candidates, the guarded `sendMessage`, and the idempotent `close`;
- the single-file client (`webrtc.js`): the link helpers `encodeToURL` and
  `decodeFromURL`, and the state and guards of `WebRTCChat`;
- the chat log `ChatManager` (`js/chat.js`);
- the scanner guard and the camera choice of `QRManager` (`js/qr.js`).

The browser's `RTCPeerConnection` and `RTCDataChannel` are external. Module
`Transport` reduces them to values: whether a connection exists, its gathering
and connection states, the descriptions set on it, and a channel's name and
`readyState`. Descriptions and candidates are opaque tokens. Every
asynchronous notification is an explicit event method (`OnIceCandidate`,
`OnGatheringStateChange`, `OnChannelOpen`, `OnTimeout`, …). An `async` method
becomes its synchronous prefix up to its wait, plus a method for what runs
after the wait resolves. LZString compression and `JSON.parse` are
function-typed parameters. No round-trip law is assumed of them. Timestamps
(`Date.now()`) are plain parameters.

Each class keeps what it passes to the outside world in a list: records
sent, states reported, objects released, links published and callbacks
made. Each method's contract states what that list becomes.

Modules: `Base` (shared values), `JsString` (`trim`, `toLowerCase`,
`includes`, `split`), `Transport`, `Session` (`js/webrtc.js`), `UrlFragment`
and `LegacyChat` (`webrtc.js`), `ChatLog` (`js/chat.js`), `Scanner`
(`js/qr.js`). `Scenario` holds three client methods. They run a full
negotiation, a message from Alice to Bob, and a race that the timeout wins.
They use only the contracts.

Some guards a reader might expect of the manager are not in the code. The
model follows the code and does not add them:

- `processOfferAndCreateAnswer` does not check the payload kind. The caller in
  `js/app.js` does. The manager itself accepts an answer-typed payload.
- `processAnswer` has no phase check: an answer is not refused outside the
  awaiting-answer phase. It records the remote name first, and then fails
  when there is no connection or the answer has no description.
- Inbound channel data is parsed with no guard. Malformed data is not
  dropped; its parse error is not modelled (see below).
- Unpacking a packed payload giving it back is a law of LZString and JSON,
  which are not modelled. The link round trip proved here is about the
  fragment text only.

## Model

| member | source | states |
|---|---|---|
| `Base.KindName` | webrtc.js:14 | the payload `type` string is `'offer'` or `'answer'`, and it is `'offer'` exactly for an offer |
| `JsString.TrimStart` | webrtc.js:175 | the result is a suffix of the input, everything dropped is white space, and the result does not start with white space |
| `JsString.TrimEnd` | webrtc.js:175 | the result is a prefix of the input, everything dropped is white space, and the result does not end with white space |
| `JsString.Trim` | webrtc.js:175 | a non-empty trimmed string neither starts nor ends with white space |
| `JsString.TrimEmptyIffBlank` | webrtc.js:175 | `s.trim() === ''` holds exactly when every character of `s` is ECMAScript white space or a line terminator |
| `JsString.LowerChar` | js/qr.js:48-50 | the characters whose lower case is an ASCII letter, the ASCII capitals and the Kelvin sign U+212A, map to that letter; the model leaves every other character unchanged (see Left out) |
| `JsString.ToLower` | js/qr.js:48-50 | `toLowerCase` keeps the length and maps each character by `LowerChar` |
| `JsString.Includes` | js/qr.js:48-50 | `includes` is true exactly when the substring occurs at some index |
| `JsString.BeforeFirst` | webrtc.js:6 | `split('#')[0]` is the longest prefix without `'#'`; a `'#'` follows it unless it is the whole string |
| `JsString.BeforeFirstJoin` | webrtc.js:6-7 | the part before the first `'#'` of `base + '#' + rest` is `base`, when `base` has no `'#'` |
| `Transport.ConnectionStateName` | js/webrtc.js:38 | a connection state is reported by one of its six browser names, and `'connected'` names exactly the connected state |
| `Transport.NewPeer` | js/webrtc.js:24 | a new connection has not gathered, is in state `new`, has no descriptions and no inbound-channel handler |
| `Transport.NewChannel` | js/webrtc.js:53 | a created channel has the given name, is `connecting` and has no handlers yet |
| `Transport.IsOpen` | js/webrtc.js:173 | the send guard holds only when a channel exists, and then exactly when its ready state is `open` |
| `Session.FirstSettling` | js/webrtc.js:149-167 | the position of the first event that settles the race: a gathering-complete check or the timeout; no earlier event settles it |
| `Session.ResolutionStep` | js/webrtc.js:138-169 | after one more event, a resolved wait keeps its cause, and a pending wait resolves exactly when the event is gathering-complete or the timeout |
| `Session.ResolutionIsFinal` | js/webrtc.js:150-161 | once resolved, no later events change how the wait resolved: the `resolved` flag makes the later event a no-op |
| `Session.TimerBoundsWait` | js/webrtc.js:160-167 | a wait that has seen its timer fire has resolved |
| `Session.CandidateWait.constructor` | js/webrtc.js:139-157 | a wait that starts with gathering complete has resolved once, with no listener and no timer; otherwise it is pending, listening, with the timer armed |
| `Session.CandidateWait.OnGatheringChange` | js/webrtc.js:149-155 | a pending wait resolves on `'complete'` and removes its listener; a resolved wait ignores the event; the call count stays at most one |
| `Session.CandidateWait.OnTimeout` | js/webrtc.js:160-167 | after the timer, the wait has resolved exactly once, by the timeout unless it had already resolved, and the listener is gone |
| `Session.GatheredAppend` | js/webrtc.js:28-32 | the candidates two runs of events collect are the first run's followed by the second run's |
| `Session.GatheredFromEvents` | js/webrtc.js:28-32 | each collected candidate came from a non-null event, and there are no more of them than events |
| `Session.ReleaseOrder` | js/webrtc.js:193-203 | `close` releases the channel first and the connection last; it releases one object per object held |
| `Session.WebRTCManager.constructor` | js/webrtc.js:4-20 | a new manager holds nothing, has empty names and no listeners, and has the two STUN servers |
| `Session.WebRTCManager.InitPeerConnection` | js/webrtc.js:23-48 | a new connection replaces the old one without closing it; the candidate list is reset to empty; the channel and the names are kept |
| `Session.WebRTCManager.OnIceCandidate` | js/webrtc.js:28-32 | a non-null candidate is appended at the end; the null end-of-candidates event adds nothing |
| `Session.WebRTCManager.OnGatheringStateChange` | js/webrtc.js:141 | the connection's gathering state becomes the new state; the connection is otherwise unchanged |
| `Session.WebRTCManager.OnConnectionStateChange` | js/webrtc.js:35-40 | the new state is forwarded by name to the listener, and only when a listener is set |
| `Session.WebRTCManager.CreateDataChannel` | js/webrtc.js:51-56 | records the local name; the channel becomes an outbound `'chat'` channel with handlers attached |
| `Session.WebRTCManager.SetupDataChannel` | js/webrtc.js:59-80 | attaches the handlers to the current channel and changes nothing else |
| `Session.WebRTCManager.OnChannelOpen` | js/webrtc.js:60-65 | the channel becomes `open`; `'connected'` is reported only when handlers and a listener are set |
| `Session.WebRTCManager.OnChannelClose` | js/webrtc.js:67-72 | the channel becomes `closed`; `'disconnected'` is reported only when handlers and a listener are set |
| `Session.WebRTCManager.OnChannelMessage` | js/webrtc.js:74-79 | the parsed record is handed on only when a message listener is set |
| `Session.WebRTCManager.OnInboundChannel` | js/webrtc.js:108-111 | the answerer's connection adopts the inbound channel and attaches handlers; a connection without the handler keeps its channel |
| `Session.WebRTCManager.WaitForInitialCandidates` | js/webrtc.js:138-157 | a new wait starts already resolved exactly when the connection's gathering is complete |
| `Session.WebRTCManager.CreateOffer` | js/webrtc.js:83-91 | sets the local name, builds a new connection whose local description is the offer, creates the outbound `'chat'` channel, empties the candidates, keeps the listeners and everything sent, reported or delivered, and starts a 500 ms wait that will package an `'offer'` with this call's user name |
| `Session.WebRTCManager.ProcessOfferAndCreateAnswer` | js/webrtc.js:102-121 | sets the local name to the argument and the remote name to the offer's; the new connection accepts an inbound channel; an offer without a description fails there with the connection holding no description; otherwise the connection holds the offer as remote and the answer as local description, and a 500 ms wait starts that will package an `'answer'` with this call's user name; no channel is created; listeners and the sent, reported and delivered lists are kept |
| `Session.WebRTCManager.PackageDescription` | js/webrtc.js:93-98 | after the wait resolves, returns `{type, username, sdp}` with the type and name of the call that started the wait and the current local description; fails, on the missing connection, exactly when there is none |
| `Session.WebRTCManager.ProcessAnswer` | js/webrtc.js:132-135 | the remote name becomes the answer's, even when the call fails; it fails on a missing connection first and on an answer without a description next, changing no connection; otherwise the answer's description becomes the remote description |
| `Session.WebRTCManager.SendMessage` | js/webrtc.js:172-184 | returns true exactly when a channel exists and is `open`; then exactly one record `{username: localUsername, message, timestamp}` is sent; otherwise nothing is sent |
| `Session.WebRTCManager.GetConnectionState` | js/webrtc.js:187-190 | `'not-initialized'` exactly when there is no connection; otherwise the connection state's name |
| `Session.WebRTCManager.Close` | js/webrtc.js:193-203 | afterwards there is no channel, no connection and no candidate; held objects are released channel first; the state reads `'not-initialized'` |
| `Session.CloseTwice` | js/webrtc.js:193-203 | a second `close` releases nothing more |
| `UrlFragment.LocationHash` | webrtc.js:11 | a non-empty hash starts with `'#'`, has at least one character after it, and is everything from the URL's first `'#'` on |
| `UrlFragment.EncodeToUrl` | webrtc.js:4-8 | the link keeps the address part of `href` before its first `'#'`, and its hash is `#<type>=<compressed>` |
| `UrlFragment.Prefix` | webrtc.js:7 | the text before the payload starts with `'#'`, ends with `'='` and is at least 7 characters long |
| `UrlFragment.PrefixSpellsKind` | webrtc.js:7 | between the `'#'` and the `'='` stands the payload's `type` string |
| `UrlFragment.HashOfJoin` | webrtc.js:6-11 | a URL built from a `'#'`-free address and `#…` keeps that address before its first `'#'`, and its hash is the `#…` part when something follows the `'#'` (a bare `'#'` gives the empty hash) |
| `UrlFragment.LineRun` | webrtc.js:14 | greedy `.+` takes the longest prefix without a line terminator |
| `UrlFragment.MatchesAtLiteral` | webrtc.js:14 | the pattern matches at a position exactly when `#offer=` or `#answer=` is written there and a character other than a line terminator follows |
| `UrlFragment.SearchFrom` | webrtc.js:14-15 | the pattern `#(offer\|answer)=(.+)` matches where the search stops, and at no position before; no result means no position matches |
| `UrlFragment.MatchText` | webrtc.js:14-18 | `match[2]` is the non-empty text that starts right after the literal part, holds no line terminator, and ends at the end of the hash or at a line terminator |
| `UrlFragment.DecodeFromUrl` | webrtc.js:10-22 | `null` for an empty hash, and exactly when no position matches; otherwise the match's kind and the decompression of its non-empty text |
| `UrlFragment.MatchOfPrefixed` | webrtc.js:7 | `#<type>=<text>` with a non-empty text free of line terminators matches at position 0 with all of the text |
| `UrlFragment.EncodeThenDecode` | webrtc.js:4-21 | decoding the hash of an encoded link gives back the same kind and the decompression of the same compressed text, for compressed text in the LZString URI alphabet |
| `LegacyChat.ErrorMessage` | webrtc.js:176-182 | the thrown message of a missing or wrongly typed input ends with the expected `type`; a parse failure shows the parser's message; the other messages are not empty |
| `LegacyChat.CheckInput` | webrtc.js:175-183 | input that is missing or blank is refused as missing; otherwise it is accepted exactly when it parses and its `type` is the expected kind |
| `LegacyChat.ConnectionStatus` | webrtc.js:108-123 | `connected` shows the success status, `disconnected` and `failed` the error status, `connecting` an info status; other states leave it alone |
| `LegacyChat.WebRTCChat.constructor` | webrtc.js:25-34 | a new client holds nothing, is not the offerer, and has one STUN server |
| `LegacyChat.WebRTCChat.InitPeerConnection` | webrtc.js:82-130 | a new connection that accepts an inbound channel on either side; the channel is kept; the model has no answer pending afterwards (see `LegacyChat.WebRTCChat.InitPeerConnection` under Left out) |
| `LegacyChat.WebRTCChat.OnIceCandidate` | webrtc.js:85-106 | the offer is published exactly on the null event and only on the offerer's side |
| `LegacyChat.WebRTCChat.OnConnectionStateChange` | webrtc.js:108-123 | records the state and shows its status, if it has one |
| `LegacyChat.WebRTCChat.OnInboundChannel` | webrtc.js:125-129 | the answerer adopts the inbound channel with handlers attached |
| `LegacyChat.WebRTCChat.SetupDataChannel` | webrtc.js:132-150 | attaches the handlers to the current channel |
| `LegacyChat.WebRTCChat.OnChannelOpen` | webrtc.js:133-138 | the channel becomes `open` and the connected status shows |
| `LegacyChat.WebRTCChat.OnChannelClose` | webrtc.js:140-145 | the channel becomes `closed` and the closed status shows |
| `LegacyChat.WebRTCChat.OnChannelMessage` | webrtc.js:147-149 | the raw text joins the transcript as received |
| `LegacyChat.WebRTCChat.CreateOffer` | webrtc.js:152-166 | marks the offerer, builds a connection with the offer as local description and an outbound `'chat'` channel; no answer is pending afterwards |
| `LegacyChat.WebRTCChat.PublishAnswer` | webrtc.js:206-218 | publishes the answer, with the local description, and ends the pending wait |
| `LegacyChat.WebRTCChat.ProcessOffer` | webrtc.js:173-224 | fails exactly when the checks fail; a failure only sets the error status, before any connection is built; on success this side is the answerer, the new connection holds offer and answer, and the answer is published at once, with the answer status, when gathering is complete; otherwise it is published later and the progress status shows until then |
| `LegacyChat.WebRTCChat.BeginAnswer` | webrtc.js:185-204 | this side becomes the answerer; the new connection holds the offer as remote and the answer as local description; the answer is published now, with the answer status, when gathering is complete; otherwise it is left pending and the progress status shows |
| `LegacyChat.WebRTCChat.OnGatheringStateChange` | webrtc.js:194-218 | a pending answer is published, with the answer status, when gathering reaches `complete`, and only then; otherwise the status is unchanged |
| `LegacyChat.WebRTCChat.ApplyAnswer` | webrtc.js:226-245 | fails exactly when the checks fail or there is no connection, with the check's error first and the missing connection next, the matching error status, and no change to the connection; otherwise the answer's description becomes the remote description and the status says it is applying the answer and connecting |
| `LegacyChat.WebRTCChat.SendChatMessage` | webrtc.js:247-254 | with an open channel the text is sent and recorded as sent; otherwise nothing is sent and the status shows an error |
| `ChatLog.ReceivedEntry` | js/chat.js:29-35 | an incoming record becomes a received entry: the sender and timestamp are copied, and `message` becomes `content` |
| `ChatLog.AppendedLength` | js/chat.js:23 | each add appends exactly one entry; a name change appends none |
| `ChatLog.ReplayExtends` | js/chat.js:16-39 | calls with no clear keep every earlier entry and append their own entries in call order; each sent entry carries the name in effect when it was added |
| `ChatLog.NameChangeAffectsLaterSends` | js/chat.js:11-19 | a name change leaves the log as it is, and the next message sent carries the new name |
| `ChatLog.ChatManager.constructor` | js/chat.js:4-8 | a new log is empty, with an empty local name |
| `ChatLog.ChatManager.SetLocalUsername` | js/chat.js:11-13 | changes the name and not the log |
| `ChatLog.ChatManager.AddSentMessage` | js/chat.js:16-26 | appends one sent entry with the local name, the message and the time; earlier entries are unchanged |
| `ChatLog.ChatManager.AddReceivedMessage` | js/chat.js:29-39 | appends one received entry mapped from the record; earlier entries are unchanged |
| `ChatLog.ChatManager.ClearMessages` | js/chat.js:66-69 | empties the log |
| `ChatLog.ChatManager.GetMessages` | js/chat.js:72-74 | the log that the calls so far produce |
| `Scanner.IsBackCamera` | js/qr.js:47-51 | a device is rear-facing exactly when its lower-cased label mentions `back`, `rear` or `environment` |
| `Scanner.KelvinSignLabelIsRear` | js/qr.js:47-53 | a camera labelled `BAC` plus the Kelvin sign lower-cases to `back` and is chosen over an earlier `front` camera |
| `Scanner.FindBackCamera` | js/qr.js:47-51 | the first device, in list order, whose lower-cased label contains `back`, `rear` or `environment`; none when no label does |
| `Scanner.CameraIndex` | js/qr.js:47-53 | the chosen camera is the first rear-facing device if there is one, otherwise `devices[0]` |
| `Scanner.ReportedMessage` | js/qr.js:95 | `error.message \|\| 'Failed to start camera'` is never empty and keeps a non-empty message |
| `Scanner.StartError` | js/qr.js:44-96 | starting fails exactly when the list is missing or empty, the lookup is rejected or the start is rejected; a missing or empty list reports `'No camera devices found'` |
| `Scanner.Route` | js/qr.js:70-80 | text that fails to parse goes to the error callback with `'Invalid QR code format'`, and never to the success callback; parsed data goes to the success callback |
| `Scanner.QRManager.constructor` | js/qr.js:4-8 | a new manager has no instance and is not scanning |
| `Scanner.QRManager.StartScanner` | js/qr.js:33-98 | while scanning, nothing changes; otherwise there is a new instance; scanning continues exactly when starting succeeds, on the chosen camera; a failure clears the flag and calls the error callback |
| `Scanner.QRManager.StopScanner` | js/qr.js:101-113 | acts only with an instance and a running scan; success clears both; failure changes nothing |
| `Scanner.QRManager.OnDecoded` | js/qr.js:66-81 | the scanner is stopped first: a successful stop clears the instance, the flag and the camera, a failed one changes none of them; then the routed result goes to the callback it is for, if that callback was given |
| `Scanner.QRManager.IsScannerRunning` | js/qr.js:116-118 | returns exactly the `isScanning` flag |

## Left out

- `js/ui.js` and `js/app.js` are not part of this model. They are DOM helpers and event wiring. The kind checks of `js/app.js` are not preconditions of the manager.
- Rendering is not modelled: QR generation and clearing, message bubbles, scrolling, timestamp formatting, status colours, button enabling, `alert`, clipboard copy, `switchTab`, `history.replaceState` and the page-load wiring of `webrtc.js`.
- The transport's own work (ICE, STUN, SDP) is not modelled. Rejections of its promises (`createOffer`, `createAnswer`, `setLocalDescription`, `setRemoteDescription`) are not modelled either. This includes the `catch` of the legacy `createOffer`. Of the manager's `TypeError`s, the model has the ones for a missing connection and for a payload whose `sdp` is `null`.
- The model interleaves events only at the candidate wait. The other awaits inside `createOffer` and `processOffer` are not interleaving points. The parameter `gatheringAtWait` stands for whatever gathering progress happened during them.
- Notifications from objects the client no longer holds are not modelled. This covers the `close` event a channel fires after `close()`, and events of a connection that `initPeerConnection` replaced. The event methods require the object to be the current one.
- `Session.CandidateWait`: does not model a `close()` of the manager while a wait is pending. In the source, the timer callback then throws at `removeEventListener` on `null`, after setting `resolved` and before calling `resolve`.
- `Session.WebRTCManager.OnChannelMessage`: the parser is total. The exception that `JSON.parse` throws on malformed inbound data is not modelled.
- `Session.WebRTCManager.SendMessage`: the record is kept as a value. Its `JSON.stringify` text is not modelled.
- `UrlFragment.LocationHash`: takes the text of the URL from its first `'#'` on as written. A browser's URL parser also strips tab and newline characters and percent-encodes spaces, quotes, `<`, `>`, backquotes and non-ASCII characters in the fragment. For this reason `UrlFragment.EncodeThenDecode` is stated only for compressed text in the LZString URI alphabet, which the parser leaves unchanged.
- `LegacyChat.WebRTCChat.InitPeerConnection`: drops a `processOffer` that is still waiting for gathering to complete. In the source that call stays suspended. Its listener stays on the replaced connection (webrtc.js:198), but its check and the code after its await read `this.peerConnection`, which is the new connection (webrtc.js:199, 206). Suppose the old connection fires a gathering event while the new one reports `'complete'`. The source then publishes the new connection's local description as an `'answer'` link and shows the answer status (webrtc.js:206-218). After a `createOffer`, that description is an offer.
- `JsString.LowerChar`: lowers only the characters whose lower case is an ASCII letter. `toLowerCase` also maps the other Unicode capitals, to non-ASCII letters. It maps U+0130 to `i` followed by U+0307. None of those results can complete `back`, `rear` or `environment`: the only ASCII letter among them is that `i`, and it is always followed by U+0307. So `Scanner.IsBackCamera`, `Scanner.FindBackCamera` and `Scanner.CameraIndex` choose the camera the source chooses. This argument is not proved in the model.
- `JsString.ToLower`: keeps the length of its input. `toLowerCase` lengthens a string that holds U+0130.
- `LegacyChat.CheckInput`: text that parses to JSON `null` is reported as a wrong kind. In the source, reading `data.type` throws a `TypeError` with a different message.
- `LegacyChat.WebRTCChat.ApplyAnswer`: the message for a missing connection is fixed to the V8 wording. Browsers word it differently.
- `Scanner.QRManager.StartScanner`: runs as one step. The source sets `isScanning` before its two awaits (js/qr.js:41-63), so for a while it is scanning without a camera. The model has no such state, and a second start during those awaits is not modelled.
- `Scanner.QRManager.OnDecoded`: an exception thrown synchronously by the success callback is not modelled. Inside the `try` it would be routed to the error callback.
- `ChatLog.ChatManager.GetMessages`: returns the log as a value. The source returns the live array, which the caller could alias and mutate.
- Time is not modelled. `Date.now()` values are parameters. The 500 ms timeout is an event, not a duration.
- Console logging and the ICE-connection-state handler, which only logs, are not modelled.

=== FILE: base.dfy ===
/** Values shared by every component of the chat client: the optional and
    error-carrying wrappers, the opaque blobs the transport produces, and the
    two record shapes that travel between the browsers. */
module Base {

  datatype Option<+T> = None | Some(value: T)

  /** The outcome of an operation that either succeeds or reports an error. */
  datatype Outcome<+E> = Pass | Fail(error: E)

  /** A value, or the error that prevented computing it. */
  datatype Result<+T, +E> = Ok(value: T) | Err(error: E)

  /** The two halves of a negotiation. */
  datatype PayloadKind = Offer | Answer

  /** The `type` string a payload of this kind carries on the wire. */
  function KindName(k: PayloadKind): (name: string)
    ensures name == "offer" || name == "answer"
    ensures name == "offer" <==> k == Offer
  {
    match k
    case Offer => "offer"
    case Answer => "answer"
  }

  /** A session description produced by the transport. The model never looks
      inside it; the token only lets two descriptions be told apart. */
  datatype Description = Description(token: nat)

  /** An address candidate reported by the transport, equally opaque. */
  datatype Candidate = Candidate(token: nat)

  /** The negotiation payload `{type, username, sdp}`; `sdp` is the
      transport's local description at the time of packaging, which is
      `null` when there is none. */
  datatype Payload = Payload(kind: PayloadKind, username: string, sdp: Option<Description>)

  /** The chat record `{type: 'message', username, message, timestamp}` that
      one manager sends and the other hands to the chat log. The `type`
      field is always `'message'` and is not stored. */
  datatype ChatRecord = ChatRecord(username: string, message: string, timestamp: int)
}

=== FILE: chat_log.dfy ===
/** The chat log (`ChatManager`): an append-only list of entries, each
    either a message this side sent or a record that arrived from the peer,
    with a `clear` that empties it. Rendering is not part of the model. */
module ChatLog {
  import opened Base

  datatype Direction = Sent | Received

  /** One entry `{type, username, content, timestamp}`. */
  datatype Entry = Entry(direction: Direction, username: string, content: string, timestamp: int)

  /** The entry an incoming record becomes: its `message` is the entry's
      `content`, the sender and the timestamp are copied. */
  function ReceivedEntry(record: ChatRecord): (e: Entry)
    ensures e.direction == Received && e.username == record.username
    ensures e.content == record.message && e.timestamp == record.timestamp
  {
    Entry(Received, record.username, record.message, record.timestamp)
  }

  /** A call that changes a chat manager. */
  datatype Call =
    | SetName(name: string)
    | AddSent(message: string, now: int)
    | AddReceived(record: ChatRecord)
    | Clear

  datatype LogState = LogState(name: string, log: seq<Entry>)

  function Step(s: LogState, c: Call): LogState {
    match c
    case SetName(n) => s.(name := n)
    case AddSent(m, t) => s.(log := s.log + [Entry(Sent, s.name, m, t)])
    case AddReceived(r) => s.(log := s.log + [ReceivedEntry(r)])
    case Clear => s.(log := [])
  }

  /** The state a new manager reaches after a sequence of calls. */
  function Replay(calls: seq<Call>): LogState {
    if calls == [] then LogState("", [])
    else Step(Replay(calls[..|calls| - 1]), calls[|calls| - 1])
  }

  /** The entries a run of calls without `Clear` appends, in call order,
      when `name` is the local user name at its start; each sent entry
      carries the name in effect when it was added. */
  function Appended(name: string, calls: seq<Call>): seq<Entry>
    requires Clear !in calls
    decreases |calls|
  {
    if calls == [] then []
    else match calls[0]
      case SetName(n) => Appended(n, calls[1..])
      case AddSent(m, t) => [Entry(Sent, name, m, t)] + Appended(name, calls[1..])
      case AddReceived(r) => [ReceivedEntry(r)] + Appended(name, calls[1..])
  }

  /** The local user name after a run of calls that starts with `name`. */
  function NameAfter(name: string, calls: seq<Call>): string
    decreases |calls|
  {
    if calls == [] then name
    else match calls[0]
      case SetName(n) => NameAfter(n, calls[1..])
      case _ => NameAfter(name, calls[1..])
  }

  /** The number of adds in a run of calls. */
  function Adds(calls: seq<Call>): nat {
    if calls == [] then 0
    else (if calls[0].AddSent? || calls[0].AddReceived? then 1 else 0) + Adds(calls[1..])
  }

  /** Each add appends exactly one entry; a name change appends none. */
  lemma {:induction false} AppendedLength(name: string, calls: seq<Call>)
    requires Clear !in calls
    ensures |Appended(name, calls)| == Adds(calls)
    decreases |calls|
  {
    if calls != [] {
      assert Clear !in calls[1..];
      match calls[0]
      case SetName(n) => AppendedLength(n, calls[1..]);
      case AddSent(_, _) => AppendedLength(name, calls[1..]);
      case AddReceived(_) => AppendedLength(name, calls[1..]);
    }
  }

  /** A run of calls without `Clear` keeps every earlier entry and appends
      its own entries after them, in call order. */
  lemma {:induction false} ReplayExtends(history: seq<Call>, calls: seq<Call>)
    requires Clear !in calls
    ensures Replay(history + calls).log == Replay(history).log + Appended(Replay(history).name, calls)
    ensures Replay(history + calls).name == NameAfter(Replay(history).name, calls)
    decreases |calls|
  {
    if calls != [] {
      var first := calls[0];
      var next := history + [first];
      assert history + calls == next + calls[1..];
      assert next[..|next| - 1] == history;
      assert Clear !in calls[1..];
      ReplayExtends(next, calls[1..]);
    } else {
      assert history + calls == history;
    }
  }

  /** A name change affects only the messages sent after it: the log it
      leaves is unchanged, and each message sent later with no name change
      in between carries the new name. */
  lemma {:induction false} NameChangeAffectsLaterSends(history: seq<Call>, name: string, message: string, now: int)
    ensures Replay(history + [SetName(name)]).log == Replay(history).log
    ensures Replay(history + [SetName(name), AddSent(message, now)]).log
      == Replay(history).log + [Entry(Sent, name, message, now)]
  {
    ReplayExtends(history, [SetName(name), AddSent(message, now)]);
    assert Appended(name, [AddSent(message, now)]) == [Entry(Sent, name, message, now)];
    ReplayExtends(history, [SetName(name)]);
  }

  class ChatManager {
    var messages: seq<Entry>
    var localUsername: string
    /** The calls made on this manager since it was built. */
    ghost var calls: seq<Call>

    ghost predicate Valid()
      reads this
    {
      Replay(calls) == LogState(localUsername, messages)
    }

    constructor ()
      ensures Valid() && calls == [] && messages == [] && localUsername == ""
    {
      messages, localUsername, calls := [], "", [];
    }

    method SetLocalUsername(username: string)
      requires Valid()
      modifies this
      ensures Valid() && calls == old(calls) + [SetName(username)]
      ensures localUsername == username && messages == old(messages)
    {
      localUsername := username;
      calls := calls + [SetName(username)];
    }

    /** Appends `{type: 'sent', username: localUsername, content: message,
        timestamp: now}`. */
    method AddSentMessage(message: string, now: int)
      requires Valid()
      modifies this
      ensures Valid() && calls == old(calls) + [AddSent(message, now)]
      ensures messages == old(messages) + [Entry(Sent, localUsername, message, now)]
      ensures localUsername == old(localUsername)
    {
      messages := messages + [Entry(Sent, localUsername, message, now)];
      calls := calls + [AddSent(message, now)];
    }

    /** Appends the entry an incoming record maps to. */
    method AddReceivedMessage(record: ChatRecord)
      requires Valid()
      modifies this
      ensures Valid() && calls == old(calls) + [AddReceived(record)]
      ensures messages == old(messages) + [ReceivedEntry(record)]
      ensures localUsername == old(localUsername)
    {
      messages := messages + [ReceivedEntry(record)];
      calls := calls + [AddReceived(record)];
    }

    method ClearMessages()
      requires Valid()
      modifies this
      ensures Valid() && calls == old(calls) + [Clear]
      ensures messages == [] && localUsername == old(localUsername)
    {
      messages := [];
      calls := calls + [Clear];
    }

    /** The log that the calls made so far produce. */
    function GetMessages(): (log: seq<Entry>)
      reads this
      requires Valid()
      ensures log == Replay(calls).log
    {
      messages
    }
  }
}

=== FILE: js_string.dfy ===
/** The few JavaScript string operations the client relies on: `trim`,
    `toLowerCase`, `includes` and `split(c)[0]`, with the character classes
    ECMAScript gives them. */
module JsString {

  /** LineTerminator in ECMAScript: the characters a regular-expression `.`
      does not match. */
  predicate IsLineTerminator(c: char) {
    c == '\n' || c == '\r' || c == '\U{2028}' || c == '\U{2029}'
  }

  /** WhiteSpace or LineTerminator in ECMAScript: what `trim` removes. */
  predicate IsWhiteSpace(c: char) {
    || c == '\t' || c == '\U{B}' || c == '\U{C}' || c == ' '
    || c == '\U{A0}' || c == '\U{FEFF}' || c == '\U{1680}'
    || ('\U{2000}' <= c <= '\U{200A}')
    || c == '\U{202F}' || c == '\U{205F}' || c == '\U{3000}'
    || IsLineTerminator(c)
  }

  /** Every character of `s` is white space (true of the empty string). */
  ghost predicate IsBlank(s: string) {
    forall i :: 0 <= i < |s| ==> IsWhiteSpace(s[i])
  }

  /** `s.trimStart()`: `s` without its leading white space. */
  function TrimStart(s: string): (r: string)
    ensures |r| <= |s| && r == s[|s| - |r|..]
    ensures forall i :: 0 <= i < |s| - |r| ==> IsWhiteSpace(s[i])
    ensures r != [] ==> !IsWhiteSpace(r[0])
  {
    if s != [] && IsWhiteSpace(s[0]) then TrimStart(s[1..]) else s
  }

  /** `s.trimEnd()`: `s` without its trailing white space. */
  function TrimEnd(s: string): (r: string)
    ensures |r| <= |s| && r == s[..|r|]
    ensures forall i :: |r| <= i < |s| ==> IsWhiteSpace(s[i])
    ensures r != [] ==> !IsWhiteSpace(r[|r| - 1])
  {
    if s != [] && IsWhiteSpace(s[|s| - 1]) then TrimEnd(s[..|s| - 1]) else s
  }

  /** `s.trim()`. */
  function Trim(s: string): (r: string)
    ensures r != [] ==> !IsWhiteSpace(r[0]) && !IsWhiteSpace(r[|r| - 1])
  {
    TrimEnd(TrimStart(s))
  }

  /** `s.trim() === ''` holds exactly of the strings made only of white space. */
  lemma TrimEmptyIffBlank(s: string)
    ensures Trim(s) == [] <==> IsBlank(s)
  {
    var t := TrimStart(s);
    if Trim(s) == [] {
      // a non-empty `t` starts with a non-space, which `TrimEnd` would keep
      assert t == [];
    } else {
      var k := |s| - |t|;
      assert t != [];
      assert !IsWhiteSpace(s[k]);
    }
  }

  /** The case mapping of `toLowerCase` for every character whose lower
      case is an ASCII letter: the ASCII capitals and the Kelvin sign
      U+212A, whose lower case is `k`. */
  function LowerChar(c: char): (d: char)
    ensures 'A' <= c <= 'Z' ==> 'a' <= d <= 'z' && d as int - c as int == 32
    ensures c == '\U{212A}' ==> d == 'k'
    ensures !('A' <= c <= 'Z') && c != '\U{212A}' ==> d == c
  {
    if 'A' <= c <= 'Z' then (c as int + 32) as char
    else if c == '\U{212A}' then 'k'
    else c
  }

  /** `s.toLowerCase()`, character by character through `LowerChar`. */
  function ToLower(s: string): (r: string)
    ensures |r| == |s|
    ensures forall i :: 0 <= i < |s| ==> r[i] == LowerChar(s[i])
  {
    if s == [] then [] else [LowerChar(s[0])] + ToLower(s[1..])
  }

  /** `sub` occurs in `s` starting at index `i`. */
  ghost predicate OccursAt(s: string, sub: string, i: int) {
    0 <= i && i + |sub| <= |s| && s[i..i + |sub|] == sub
  }

  /** `s.includes(sub)`. */
  function Includes(s: string, sub: string): (r: bool)
    ensures r <==> exists i :: OccursAt(s, sub, i)
  {
    if |sub| > |s| then false
    else if s[..|sub|] == sub then (assert OccursAt(s, sub, 0); true)
    else OccursAfterFirst(s, sub); Includes(s[1..], sub)
  }

  /** When `sub` is not a prefix of `s`, it occurs in `s` exactly when it
      occurs in the tail of `s`. */
  lemma OccursAfterFirst(s: string, sub: string)
    requires |sub| <= |s| && s[..|sub|] != sub
    ensures (exists i :: OccursAt(s, sub, i)) <==> exists i :: OccursAt(s[1..], sub, i)
  {
    if exists i :: OccursAt(s, sub, i) {
      var i :| OccursAt(s, sub, i);
      assert i != 0;
      assert s[1..][i - 1..i - 1 + |sub|] == s[i..i + |sub|];
      assert OccursAt(s[1..], sub, i - 1);
    }
    if exists i :: OccursAt(s[1..], sub, i) {
      var i :| OccursAt(s[1..], sub, i);
      assert s[1..][i..i + |sub|] == s[i + 1..i + 1 + |sub|];
      assert OccursAt(s, sub, i + 1);
    }
  }

  /** `s.split(c)[0]`: the part of `s` before the first `c`, or all of `s`. */
  function BeforeFirst(s: string, c: char): (r: string)
    ensures |r| <= |s| && r == s[..|r|]
    ensures c !in r
    ensures |r| < |s| ==> s[|r|] == c
  {
    if s == [] || s[0] == c then [] else [s[0]] + BeforeFirst(s[1..], c)
  }

  /** The part before the first `c` of a string that has a `c` right after
      a `c`-free prefix is that prefix. */
  lemma {:induction false} BeforeFirstJoin(a: string, c: char, rest: string)
    requires c !in a
    ensures BeforeFirst(a + [c] + rest, c) == a
  {
    if a != [] {
      assert (a + [c] + rest)[1..] == a[1..] + [c] + rest;
      BeforeFirstJoin(a[1..], c, rest);
    }
  }
}

=== FILE: legacy_chat.dfy ===
/** The single-file variant of the client (`WebRTCChat`): the same
    negotiation, with the offer published when candidate gathering ends and
    the answer when the answerer's gathering completes, input checks in
    front of every negotiation step, and a status line instead of
    callbacks. Rendering is reduced to the status, the chat transcript and
    the list of published links. */
module LegacyChat {
  import opened Base
  import opened JsString
  import opened Transport

  /** The styles of `updateStatus`: `'info'`, `'connected'` and `'error'`. */
  datatype Tone = Info | Success | Problem

  datatype Status = Status(text: string, tone: Tone)

  datatype Direction = Sent | Received

  /** One line `addChatMessage` adds to the transcript. */
  datatype Line = Line(text: string, direction: Direction)

  /** A published link: which half of the negotiation and the local
      description it carries. */
  datatype Share = Share(kind: PayloadKind, description: Option<Description>)

  /** What the client reads from `JSON.parse` of pasted text: the `type`
      field (`None` when it is absent or not a string) and the description
      handed to the transport. */
  datatype ParsedDoc = ParsedDoc(typeField: Option<string>, description: Description)

  /** Why `processOffer` or `applyAnswer` stopped. */
  datatype InputError =
    | MissingInput(expected: PayloadKind)
    | Unparsable(message: string)
    | WrongKind(expected: PayloadKind)
    | NoPeerConnection

  /** The `message` of the error each check throws; the messages of the
      two kind-specific checks end with the expected `type`, and a parse
      failure shows the parser's own message. */
  function ErrorMessage(e: InputError): (m: string)
    ensures (e.MissingInput? || e.WrongKind?) ==>
      |m| > |KindName(e.expected)| && m[|m| - |KindName(e.expected)|..] == KindName(e.expected)
    ensures e.Unparsable? ==> m == e.message
    ensures !e.Unparsable? ==> m != []
  {
    match e
    case MissingInput(k) => "Please paste an " + KindName(k)
    case Unparsable(m) => m
    case WrongKind(k) => "Invalid data: expected an " + KindName(k)
    case NoPeerConnection => "Cannot read properties of null (reading 'setRemoteDescription')"
  }

  /** The checks in front of `processOffer` and `applyAnswer`: the text must
      be present and not blank, must parse, and must carry the expected
      `type`. */
  function CheckInput(input: Option<string>, expected: PayloadKind,
                      parse: string -> Result<ParsedDoc, string>): (r: Result<ParsedDoc, InputError>)
    ensures r == Err(MissingInput(expected)) <==> input.None? || IsBlank(input.value)
    ensures r.Ok? <==>
      && input.Some? && !IsBlank(input.value)
      && parse(input.value).Ok?
      && parse(input.value).value.typeField == Some(KindName(expected))
    ensures r.Ok? ==> r.value == parse(input.value).value
  {
    if input.None? then Err(MissingInput(expected))
    else
      TrimEmptyIffBlank(input.value);
      if Trim(input.value) == "" then Err(MissingInput(expected))
      else match parse(input.value)
        case Err(m) => Err(Unparsable(m))
        case Ok(doc) =>
          if doc.typeField != Some(KindName(expected)) then Err(WrongKind(expected)) else Ok(doc)
  }

  /** The status a connection-state change shows, if any. */
  function ConnectionStatus(state: ConnectionState): (s: Option<Status>)
    ensures s.Some? && s.value.tone == Success <==> state == Connected
    ensures s.Some? && s.value.tone == Problem <==> state == Disconnected || state == Failed
    ensures s.None? <==> state == Fresh || state == Shut
  {
    match state
    case Connected => Some(Status("Connected! You can now chat.", Success))
    case Negotiating => Some(Status("Connecting...", Info))
    case Disconnected => Some(Status("Connection lost.", Problem))
    case Failed => Some(Status("Connection lost.", Problem))
    case _ => None
  }

  class WebRTCChat {
    const iceServers: seq<string>

    var peerConnection: Option<Peer>
    var dataChannel: Option<Channel>
    var isOfferer: bool
    /** The status line; `None` until the first update. */
    var status: Option<Status>
    /** The texts passed to `dataChannel.send`, in order. */
    var wire: seq<string>
    /** The chat transcript. */
    var transcript: seq<Line>
    /** The links published so far (text box, link and QR code). */
    var shared: seq<Share>
    /** `processOffer` is waiting for gathering to complete. */
    var answerPending: bool

    ghost predicate Valid()
      reads this
    {
      peerConnection.None? ==> dataChannel.None? && !answerPending
    }

    constructor ()
      ensures Valid() && iceServers == ["stun:stun.l.google.com:19302"]
      ensures peerConnection.None? && dataChannel.None? && !isOfferer && status.None?
      ensures wire == [] && transcript == [] && shared == [] && !answerPending
    {
      iceServers := ["stun:stun.l.google.com:19302"];
      peerConnection, dataChannel, isOfferer, status := None, None, false, None;
      wire, transcript, shared, answerPending := [], [], [], false;
    }

    /** A new connection, with the inbound-channel handler registered on
        both sides; the data channel is kept. The model drops a
        `processOffer` still waiting on the previous connection, so no
        answer is pending afterwards. The source keeps that call suspended:
        its listener stays on the old connection, while its check and the
        code after its await read the new one. */
    method InitPeerConnection()
      requires Valid()
      modifies this`peerConnection, this`answerPending
      ensures Valid() && peerConnection == Some(NewPeer().(acceptsInbound := true)) && !answerPending
    {
      peerConnection := Some(NewPeer().(acceptsInbound := true));
      answerPending := false;
    }

    /** `onicecandidate`: the end-of-candidates `null` publishes the offer,
        and only on the offerer's side; a candidate publishes nothing. */
    method OnIceCandidate(candidate: Option<Candidate>)
      requires Valid() && peerConnection.Some?
      modifies this`shared, this`status
      ensures Valid()
      ensures shared == old(shared) +
        (if candidate.None? && isOfferer then [Share(Offer, peerConnection.value.local)] else [])
      ensures status == if candidate.None? && isOfferer
        then Some(Status("Offer created! Share the link with Person B.", Info)) else old(status)
    {
      if candidate.None? && isOfferer {
        shared := shared + [Share(Offer, peerConnection.value.local)];
        status := Some(Status("Offer created! Share the link with Person B.", Info));
      }
    }

    /** `onconnectionstatechange`. */
    method OnConnectionStateChange(state: ConnectionState)
      requires Valid() && peerConnection.Some?
      modifies this`peerConnection, this`status
      ensures Valid() && peerConnection == Some(old(peerConnection.value).(connection := state))
      ensures status == if ConnectionStatus(state).Some? then ConnectionStatus(state) else old(status)
    {
      peerConnection := Some(peerConnection.value.(connection := state));
      var s := ConnectionStatus(state);
      if s.Some? {
        status := s;
      }
    }

    /** `ondatachannel`: the answerer adopts the offerer's channel. */
    method OnInboundChannel(name: string, state: ReadyState)
      requires Valid() && peerConnection.Some? && peerConnection.value.acceptsInbound
      modifies this`dataChannel
      ensures Valid() && dataChannel == Some(Channel(name, state, true))
    {
      dataChannel := Some(Channel(name, state, false));
      SetupDataChannel();
    }

    /** Attaches the open, close and message handlers to the channel. */
    method SetupDataChannel()
      requires Valid() && dataChannel.Some?
      modifies this`dataChannel
      ensures Valid() && dataChannel == Some(old(dataChannel.value).(handled := true))
    {
      dataChannel := Some(dataChannel.value.(handled := true));
    }

    /** The channel's `open` event. */
    method OnChannelOpen()
      requires Valid() && dataChannel.Some? && dataChannel.value.handled
      modifies this`dataChannel, this`status
      ensures Valid() && dataChannel == Some(old(dataChannel.value).(readyState := Open))
      ensures status == Some(Status("Connected! You can now chat.", Success))
    {
      dataChannel := Some(dataChannel.value.(readyState := Open));
      status := Some(Status("Connected! You can now chat.", Success));
    }

    /** The channel's `close` event. */
    method OnChannelClose()
      requires Valid() && dataChannel.Some? && dataChannel.value.handled
      modifies this`dataChannel, this`status
      ensures Valid() && dataChannel == Some(old(dataChannel.value).(readyState := Closed))
      ensures status == Some(Status("Connection closed.", Problem))
    {
      dataChannel := Some(dataChannel.value.(readyState := Closed));
      status := Some(Status("Connection closed.", Problem));
    }

    /** The channel's `message` event: the raw text joins the transcript. */
    method OnChannelMessage(data: string)
      requires Valid() && dataChannel.Some? && dataChannel.value.handled
      modifies this`transcript
      ensures transcript == old(transcript) + [Line(data, Received)]
    {
      transcript := transcript + [Line(data, Received)];
    }

    /** `createOffer` (Person A): marks this side as offerer, builds the
        connection and the `'chat'` channel and sets the offer as local
        description. The offer is published later, by `OnIceCandidate`. */
    method CreateOffer(offer: Description)
      requires Valid()
      modifies this`isOfferer, this`peerConnection, this`dataChannel, this`status, this`answerPending
      ensures Valid() && isOfferer && !answerPending
      ensures peerConnection == Some(NewPeer().(local := Some(offer), acceptsInbound := true))
      ensures dataChannel == Some(Channel("chat", Connecting, true))
      ensures status == Some(Status("Gathering connection info...", Info))
    {
      status := Some(Status("Creating offer...", Info));
      isOfferer := true;
      InitPeerConnection();
      dataChannel := Some(NewChannel("chat"));
      SetupDataChannel();
      peerConnection := Some(peerConnection.value.(local := Some(offer)));
      status := Some(Status("Gathering connection info...", Info));
    }

    /** Shows the answer once the answerer's gathering is complete. */
    method PublishAnswer()
      requires Valid() && peerConnection.Some?
      modifies this`shared, this`status, this`answerPending
      ensures Valid() && !answerPending
      ensures shared == old(shared) + [Share(Answer, peerConnection.value.local)]
      ensures status == Some(Status("Answer created! Share the link with Person A.", Info))
    {
      shared := shared + [Share(Answer, peerConnection.value.local)];
      status := Some(Status("Answer created! Share the link with Person A.", Info));
      answerPending := false;
    }

    /** `processOffer` (Person B): checks the pasted text before anything
        else, and on success goes on to build the answer. */
    method ProcessOffer(offerJson: Option<string>, parse: string -> Result<ParsedDoc, string>,
                        answer: Description, gatheringAtWait: GatheringState)
      returns (r: Outcome<InputError>)
      requires Valid()
      modifies this`status, this`isOfferer, this`peerConnection, this`shared, this`answerPending
      ensures Valid()
      ensures r.Fail? <==> CheckInput(offerJson, Offer, parse).Err?
      ensures r.Fail? ==> r.error == CheckInput(offerJson, Offer, parse).error
      ensures r.Fail? ==> status == Some(Status("Error: " + ErrorMessage(r.error), Problem))
      ensures r.Fail? ==>
        && peerConnection == old(peerConnection) && isOfferer == old(isOfferer)
        && shared == old(shared) && answerPending == old(answerPending)
      ensures r.Pass? ==>
        var doc := CheckInput(offerJson, Offer, parse).value;
        && !isOfferer
        && peerConnection == Some(Peer(gatheringAtWait, Fresh, Some(answer), Some(doc.description), true))
        && answerPending == (gatheringAtWait != Complete)
        && shared == old(shared) + (if gatheringAtWait == Complete then [Share(Answer, Some(answer))] else [])
        && status == Some(Status(if gatheringAtWait == Complete then "Answer created! Share the link with Person A."
          else "Processing offer and creating answer...", Info))
    {
      var checked := CheckInput(offerJson, Offer, parse);
      if checked.Err? {
        status := Some(Status("Error: " + ErrorMessage(checked.error), Problem));
        return Fail(checked.error);
      }
      BeginAnswer(checked.value, answer, gatheringAtWait);
      r := Pass;
    }

    /** The part of `processOffer` after its checks: marks this side as
        answerer, builds the connection, applies the offer, sets the answer
        as local description and waits for gathering to complete
        (`gatheringAtWait` is the state the connection reports when the
        wait begins); the answer is published at once when gathering is
        already complete. */
    method BeginAnswer(doc: ParsedDoc, answer: Description, gatheringAtWait: GatheringState)
      requires Valid()
      modifies this`status, this`isOfferer, this`peerConnection, this`shared, this`answerPending
      ensures Valid() && !isOfferer
      ensures peerConnection == Some(Peer(gatheringAtWait, Fresh, Some(answer), Some(doc.description), true))
      ensures answerPending == (gatheringAtWait != Complete)
      ensures shared == old(shared) + (if gatheringAtWait == Complete then [Share(Answer, Some(answer))] else [])
      ensures status == Some(Status(if gatheringAtWait == Complete then "Answer created! Share the link with Person A."
          else "Processing offer and creating answer...", Info))
    {
      status := Some(Status("Processing offer and creating answer...", Info));
      isOfferer := false;
      InitPeerConnection();
      peerConnection := Some(peerConnection.value.(
        remote := Some(doc.description), local := Some(answer), gathering := gatheringAtWait));
      if gatheringAtWait == Complete {
        PublishAnswer();
      } else {
        answerPending := true;
      }
    }

    /** The connection's gathering state changes; a pending `processOffer`
        resumes when it reaches `'complete'`. */
    method OnGatheringStateChange(state: GatheringState)
      requires Valid() && peerConnection.Some?
      modifies this`peerConnection, this`shared, this`status, this`answerPending
      ensures Valid() && peerConnection == Some(old(peerConnection.value).(gathering := state))
      ensures answerPending == (old(answerPending) && state != Complete)
      ensures shared == old(shared) +
        (if old(answerPending) && state == Complete then [Share(Answer, peerConnection.value.local)] else [])
      ensures status == if old(answerPending) && state == Complete
        then Some(Status("Answer created! Share the link with Person A.", Info)) else old(status)
    {
      peerConnection := Some(peerConnection.value.(gathering := state));
      if answerPending && state == Complete {
        PublishAnswer();
      }
    }

    /** `applyAnswer` (Person A): the same checks, then the answer's
        description becomes the remote description; without a connection
        the call fails. */
    method ApplyAnswer(answerJson: Option<string>, parse: string -> Result<ParsedDoc, string>)
      returns (r: Outcome<InputError>)
      requires Valid()
      modifies this`peerConnection, this`status
      ensures Valid()
      ensures r.Fail? <==> CheckInput(answerJson, Answer, parse).Err? || old(peerConnection).None?
      ensures r.Fail? ==> r.error == if CheckInput(answerJson, Answer, parse).Err?
        then CheckInput(answerJson, Answer, parse).error else NoPeerConnection
      ensures r.Fail? ==> status == Some(Status("Error: " + ErrorMessage(r.error), Problem))
      ensures r.Fail? ==> peerConnection == old(peerConnection)
      ensures r.Pass? ==>
        var doc := CheckInput(answerJson, Answer, parse).value;
        && peerConnection == Some(old(peerConnection.value).(remote := Some(doc.description)))
        && status == Some(Status("Applying answer and connecting...", Info))
    {
      var checked := CheckInput(answerJson, Answer, parse);
      if checked.Err? {
        status := Some(Status("Error: " + ErrorMessage(checked.error), Problem));
        return Fail(checked.error);
      }
      status := Some(Status("Applying answer and connecting...", Info));
      if peerConnection.None? {
        status := Some(Status("Error: " + ErrorMessage(NoPeerConnection), Problem));
        return Fail(NoPeerConnection);
      }
      peerConnection := Some(peerConnection.value.(remote := Some(checked.value.description)));
      r := Pass;
    }

    /** `sendChatMessage`: an open channel sends the text and records it as
        sent; otherwise nothing is sent and the status shows an error. */
    method SendChatMessage(message: string)
      requires Valid()
      modifies this`wire, this`transcript, this`status
      ensures wire == old(wire) + (if IsOpen(dataChannel) then [message] else [])
      ensures transcript == old(transcript) + (if IsOpen(dataChannel) then [Line(message, Sent)] else [])
      ensures status == if IsOpen(dataChannel) then old(status)
        else Some(Status("Cannot send: not connected", Problem))
    {
      if IsOpen(dataChannel) {
        wire := wire + [message];
        transcript := transcript + [Line(message, Sent)];
      } else {
        status := Some(Status("Cannot send: not connected", Problem));
      }
    }
  }
}

=== FILE: scanner.dfy ===
/** The QR scanner (`QRManager`): a guard flag that keeps one scan running
    at a time, the rule that picks the camera, and the routing of decoded
    text to the success or the error callback. The camera, the decoder and
    QR rendering are external. */
module Scanner {
  import opened Base
  import opened JsString

  /** A camera as the camera lookup lists it. */
  datatype Device = Device(id: string, caption: string)

  /** `word` occurs somewhere in `s`. */
  ghost predicate Mentions(s: string, word: string) {
    exists i :: OccursAt(s, word, i)
  }

  /** The device label (`caption`), lower-cased, mentions `back`, `rear` or
      `environment`. */
  predicate IsBackCamera(d: Device): (b: bool)
    ensures var l := ToLower(d.caption);
      b <==> Mentions(l, "back") || Mentions(l, "rear") || Mentions(l, "environment")
  {
    var l := ToLower(d.caption);
    Includes(l, "back") || Includes(l, "rear") || Includes(l, "environment")
  }

  /** `devices.find(...)`: the position of the first rear-facing camera. */
  function FindBackCamera(devices: seq<Device>): (r: Option<nat>)
    ensures r.Some? ==> r.value < |devices| && IsBackCamera(devices[r.value])
    ensures r.Some? ==> forall j :: 0 <= j < r.value ==> !IsBackCamera(devices[j])
    ensures r.None? ==> forall j :: 0 <= j < |devices| ==> !IsBackCamera(devices[j])
  {
    if devices == [] then None
    else if IsBackCamera(devices[0]) then Some(0)
    else match FindBackCamera(devices[1..])
      case None => None
      case Some(k) => Some(k + 1)
  }

  /** The position of the camera the scanner starts: the first rear-facing
      one, otherwise the first in the list. */
  function CameraIndex(devices: seq<Device>): (k: nat)
    requires devices != []
    ensures k < |devices|
    ensures (exists j :: 0 <= j < |devices| && IsBackCamera(devices[j])) ==>
      IsBackCamera(devices[k]) && forall j :: 0 <= j < k ==> !IsBackCamera(devices[j])
    ensures (forall j :: 0 <= j < |devices| ==> !IsBackCamera(devices[j])) ==> k == 0
  {
    match FindBackCamera(devices)
    case Some(k) => k
    case None => 0
  }

  /** A `front` label mentions none of the three words. */
  lemma FrontLabelIsNotRear()
    ensures !IsBackCamera(Device("a", "front"))
  {
    assert ToLower("front") == "front";
    // `Includes` steps past "f" and "r" before the word no longer fits
    assert "front"[1..] == "ront" && "ront"[1..] == "ont";
    assert "front"[..4][0] == 'f' && "ront"[..4][0] == 'r' && "ront"[..4][1] == 'o';
    assert !Includes("front", "back") && !Includes("front", "rear");
  }

  /** `toLowerCase` turns a label that spells `back` with the Kelvin sign
      into `back`. */
  lemma KelvinLabelIsRear()
    ensures IsBackCamera(Device("b", "BAC\U{212A}"))
  {
    assert ToLower("BAC\U{212A}") == "back" by {
      assert ToLower("BAC\U{212A}")[3] == LowerChar('\U{212A}') == 'k';
    }
    assert Includes("back", "back");
  }

  /** A camera labelled `back` with the Kelvin sign is chosen over an
      earlier front camera. */
  lemma KelvinSignLabelIsRear()
    ensures CameraIndex([Device("a", "front"), Device("b", "BAC\U{212A}")]) == 1
  {
    var front, kelvin := Device("a", "front"), Device("b", "BAC\U{212A}");
    FrontLabelIsNotRear();
    KelvinLabelIsRear();
    assert FindBackCamera([front, kelvin]) == Some(1) by {
      assert [front, kelvin][1..] == [kelvin];
      assert FindBackCamera([kelvin]) == Some(0);
    }
  }

  /** What the camera lookup produced: a list, nothing (`null`), or a
      rejection with its message. */
  datatype CameraLookup = Found(devices: seq<Device>) | Missing | Rejected(message: string)

  /** A call made to one of the scan callbacks. */
  datatype Delivery<D> = Decoded(data: D) | Failed(message: string)

  const NoCameraMessage := "No camera devices found"
  const InvalidFormatMessage := "Invalid QR code format"

  /** `error.message || 'Failed to start camera'`. */
  function ReportedMessage(message: string): (m: string)
    ensures m != []
    ensures message != [] ==> m == message
  {
    if message == [] then "Failed to start camera" else message
  }

  /** Why starting the scanner fails, if it does: no usable camera list, a
      rejected lookup, or a rejected start. */
  function StartError(lookup: CameraLookup, startFailure: Option<string>): (e: Option<string>)
    ensures e.None? <==> lookup.Found? && lookup.devices != [] && startFailure.None?
    ensures (lookup.Missing? || lookup == Found([])) ==> e == Some(NoCameraMessage)
    ensures e.Some? ==> e.value != []
  {
    match lookup
    case Rejected(m) => Some(ReportedMessage(m))
    case Missing => Some(NoCameraMessage)
    case Found(devices) =>
      if devices == [] then Some(NoCameraMessage)
      else if startFailure.Some? then Some(ReportedMessage(startFailure.value))
      else None
  }

  /** Where decoded text goes: parsed data to the success callback,
      anything `JSON.parse` rejects to the error callback. */
  function Route<D>(parsed: Option<D>): (r: Delivery<D>)
    ensures r.Failed? <==> parsed.None?
    ensures r.Failed? ==> r.message == InvalidFormatMessage
    ensures r.Decoded? ==> r.data == parsed.value
  {
    match parsed
    case Some(d) => Decoded(d)
    case None => Failed(InvalidFormatMessage)
  }

  class QRManager<D> {
    /** `html5QrCode` is set. */
    var hasInstance: bool
    var isScanning: bool
    /** The camera the running scan uses. */
    var camera: Option<string>
    /** The scan accepted by the guard came with a success / an error
        callback. */
    var hasOnSuccess: bool
    var hasOnError: bool
    /** The calls made to the scan callbacks, in order. */
    var deliveries: seq<Delivery<D>>

    ghost predicate Valid()
      reads this
    {
      && (isScanning <==> camera.Some?)
      && (isScanning ==> hasInstance)
    }

    constructor ()
      ensures Valid() && !hasInstance && !isScanning && deliveries == []
    {
      hasInstance, isScanning, camera := false, false, None;
      hasOnSuccess, hasOnError, deliveries := false, false, [];
    }

    /** `startScanner`: refused while a scan runs; otherwise a new scanner
        instance starts on the chosen camera, or the error path resets the
        flag and reports to the error callback. */
    method StartScanner(onSuccess: bool, onError: bool, lookup: CameraLookup, startFailure: Option<string>)
      requires Valid()
      modifies this
      ensures Valid()
      ensures old(isScanning) ==>
        && hasInstance == old(hasInstance) && isScanning && camera == old(camera)
        && hasOnSuccess == old(hasOnSuccess) && hasOnError == old(hasOnError)
        && deliveries == old(deliveries)
      ensures !old(isScanning) ==>
        && hasInstance && hasOnSuccess == onSuccess && hasOnError == onError
        && (isScanning <==> StartError(lookup, startFailure).None?)
        && (isScanning ==> camera == Some(lookup.devices[CameraIndex(lookup.devices)].id))
        && deliveries == old(deliveries) +
             (if !isScanning && onError then [Failed(StartError(lookup, startFailure).value)] else [])
    {
      if isScanning {
        return;
      }
      hasInstance, isScanning, camera := true, true, None;
      hasOnSuccess, hasOnError := onSuccess, onError;
      var error := StartError(lookup, startFailure);
      if error.None? {
        camera := Some(lookup.devices[CameraIndex(lookup.devices)].id);
      } else {
        isScanning := false;
        if onError {
          deliveries := deliveries + [Failed(error.value)];
        }
      }
    }

    /** `stopScanner`: only a running scan with an instance is stopped; a
        failed stop changes nothing. */
    method StopScanner(stopFails: bool)
      requires Valid()
      modifies this`hasInstance, this`isScanning, this`camera
      ensures Valid()
      ensures if old(hasInstance) && old(isScanning) && !stopFails
        then !hasInstance && !isScanning
        else hasInstance == old(hasInstance) && isScanning == old(isScanning) && camera == old(camera)
    {
      if hasInstance && isScanning && !stopFails {
        hasInstance, isScanning, camera := false, false, None;
      }
    }

    /** The decode callback of a running scan: the scanner is stopped, then
        the text is parsed and routed. */
    method OnDecoded(text: string, parse: string -> Option<D>, stopFails: bool)
      requires Valid() && isScanning
      modifies this`hasInstance, this`isScanning, this`camera, this`deliveries
      ensures Valid() && isScanning == stopFails
      ensures !stopFails ==> !hasInstance && camera.None?
      ensures stopFails ==> hasInstance == old(hasInstance) && camera == old(camera)
      ensures var r := Route(parse(text));
        deliveries == old(deliveries) +
          (if (r.Decoded? && hasOnSuccess) || (r.Failed? && hasOnError) then [r] else [])
    {
      StopScanner(stopFails);
      var r := Route(parse(text));
      if (r.Decoded? && hasOnSuccess) || (r.Failed? && hasOnError) {
        deliveries := deliveries + [r];
      }
    }

    function IsScannerRunning(): (running: bool)
      reads this
      ensures running == isScanning
    {
      isScanning
    }
  }
}

=== FILE: scenario.dfy ===
/** Clients of the session manager and the chat log: the negotiation and
    the first message between two browsers, written against the contracts
    alone. */
module Scenario {
  import opened Base
  import opened Transport
  import opened Session
  import ChatLog

  /** The timeout wins the race; the later gathering-complete event is
      ignored. */
  method TimeoutWinsRace()
  {
    var wait := new CandidateWait(Gathering, 500);
    wait.OnGatheringChange(Gathering);
    assert wait.cause.None? && wait.resolutions == 0;
    wait.OnTimeout();
    wait.OnGatheringChange(Complete);
    assert wait.cause == Some(TimedOut) && wait.resolutions == 1;
  }

  /** Alice offers, Bob answers, Alice applies the answer: each side ends up
      knowing the other's name and holding the other's description. */
  method OfferAndAnswer(offerSdp: Description, answerSdp: Description)
  {
    var alice := new WebRTCManager();
    var pendingA := alice.CreateOffer("Alice", offerSdp, Gathering);
    pendingA.wait.OnTimeout();
    var offer := alice.PackageDescription(pendingA);
    assert offer == Ok(Payload(Offer, "Alice", Some(offerSdp)));

    var bob := new WebRTCManager();
    var pendingB := bob.ProcessOfferAndCreateAnswer(offer.value, "Bob", answerSdp, Complete);
    var answer := bob.PackageDescription(pendingB.value);
    assert answer == Ok(Payload(Answer, "Bob", Some(answerSdp)));
    assert bob.peerConnection.value.remote == Some(offerSdp);

    var applied := alice.ProcessAnswer(answer.value);
    assert applied == Pass && alice.peerConnection.value.remote == Some(answerSdp);
    assert alice.remoteUsername == "Bob" && bob.remoteUsername == "Alice";
  }

  /** Nothing goes out before the channel opens; once it is open, Alice's
      "hi" is the record Bob's log shows. */
  method FirstMessage(offerSdp: Description, now: int)
  {
    var alice := new WebRTCManager();
    var _ := alice.CreateOffer("Alice", offerSdp, Gathering);
    var early := alice.SendMessage("too soon", now);
    assert !early && alice.sent == [];

    alice.OnChannelOpen();
    var ok := alice.SendMessage("hi", now);
    assert ok && alice.sent == [ChatRecord("Alice", "hi", now)];

    var log := new ChatLog.ChatManager();
    log.AddReceivedMessage(alice.sent[0]);
    assert log.GetMessages() == [ChatLog.Entry(ChatLog.Received, "Alice", "hi", now)];

    alice.Close();
    assert alice.GetConnectionState() == NotInitialized;
    var late := alice.SendMessage("gone", now);
    assert !late;
  }
}

=== FILE: session.dfy ===
/** The session manager of the two-browser chat (`WebRTCManager`): it owns
    one peer connection and one data channel, packages the offer and the
    answer, and sends chat records once the channel is open. The browser's
    connection object is abstract (see module Transport); everything it
    does asynchronously reaches the manager as an explicit event method. */
module Session {
  import opened Base
  import opened Transport

  // ---------------------------------------------------------------------
  // The bounded wait for address candidates
  // ---------------------------------------------------------------------

  /** What can reach a pending wait: a gathering-state change (carrying the
      state the connection reports at that moment) or the timer firing. */
  datatype WaitEvent = GatheringChange(state: GatheringState) | TimerFired

  /** Why a wait resolved. */
  datatype Resolution = AlreadyComplete | GatheringDone | TimedOut

  /** An event that resolves a wait that is still pending. */
  predicate Settles(e: WaitEvent) {
    e == TimerFired || e == GatheringChange(Complete)
  }

  function CauseOf(e: WaitEvent): Resolution {
    if e == TimerFired then TimedOut else GatheringDone
  }

  /** The position of the first settling event, if any. */
  function FirstSettling(events: seq<WaitEvent>): (r: Option<nat>)
    ensures r.Some? ==> r.value < |events| && Settles(events[r.value])
    ensures r.Some? ==> forall j :: 0 <= j < r.value ==> !Settles(events[j])
    ensures r.None? ==> forall j :: 0 <= j < |events| ==> !Settles(events[j])
  {
    if events == [] then None
    else if Settles(events[0]) then Some(0)
    else match FirstSettling(events[1..])
      case None => None
      case Some(k) => Some(k + 1)
  }

  /** How a wait resolves, given whether gathering was already complete when
      it began and the events delivered to it since: immediately, or on the
      first of gathering-complete and the timeout; `None` while pending. */
  function ResolutionOf(startedComplete: bool, events: seq<WaitEvent>): Option<Resolution> {
    if startedComplete then Some(AlreadyComplete)
    else match FirstSettling(events)
      case None => None
      case Some(k) => Some(CauseOf(events[k]))
  }

  /** One more event: a resolved wait stays resolved the same way, and a
      pending one resolves exactly when the event settles it. */
  lemma {:induction false} ResolutionStep(startedComplete: bool, events: seq<WaitEvent>, e: WaitEvent)
    ensures ResolutionOf(startedComplete, events + [e]) ==
      if ResolutionOf(startedComplete, events).Some? then ResolutionOf(startedComplete, events)
      else if Settles(e) then Some(CauseOf(e))
      else None
  {
    if !startedComplete {
      var all := events + [e];
      assert forall j :: 0 <= j < |events| ==> all[j] == events[j];
      match FirstSettling(events)
      case Some(k) =>
        var k' := FirstSettling(all);
        assert k'.Some? && k'.value == k by {
          assert Settles(all[k]);
        }
      case None =>
        assert all[|events|] == e;
    }
  }

  /** Later events never change how a wait resolved. */
  lemma {:induction false} ResolutionIsFinal(startedComplete: bool, events: seq<WaitEvent>, later: seq<WaitEvent>)
    requires ResolutionOf(startedComplete, events).Some?
    ensures ResolutionOf(startedComplete, events + later) == ResolutionOf(startedComplete, events)
  {
    if later != [] {
      var last := later[|later| - 1];
      var front := later[..|later| - 1];
      assert events + later == (events + front) + [last];
      ResolutionIsFinal(startedComplete, events, front);
      ResolutionStep(startedComplete, events + front, last);
    } else {
      assert events + later == events;
    }
  }

  /** Once the timer has fired, the wait has resolved: the bounded wait
      always ends. */
  lemma {:induction false} TimerBoundsWait(startedComplete: bool, events: seq<WaitEvent>)
    requires TimerFired in events
    ensures ResolutionOf(startedComplete, events).Some?
  {
    var i :| 0 <= i < |events| && events[i] == TimerFired;
    assert Settles(events[i]);
  }

  /** The promise of `waitForInitialCandidates`: its `resolved` flag, the
      `checkState` listener, the pending timer, and how many times
      `resolve` was called. */
  class CandidateWait {
    const timeoutMs: int
    /** Gathering was already complete when the wait began. */
    ghost const startedComplete: bool
    /** The events delivered to the wait so far. */
    ghost var events: seq<WaitEvent>

    /** The `resolved` flag of the racing branch (the immediate branch
        returns before the flag exists). */
    var resolved: bool
    /** `checkState` is attached to `icegatheringstatechange`. */
    var listening: bool
    /** The timeout callback is scheduled and has not run yet. */
    var timerPending: bool
    /** The number of calls to `resolve`. */
    var resolutions: nat
    var cause: Option<Resolution>

    ghost predicate Valid()
      reads this
    {
      && cause == ResolutionOf(startedComplete, events)
      && resolutions == (if cause.Some? then 1 else 0)
      && listening == (!startedComplete && cause.None?)
      && (startedComplete ==> !resolved && !timerPending)
      && (!startedComplete ==> resolved == cause.Some? && timerPending == (TimerFired !in events))
    }

    /** Starting the wait: resolve at once when gathering is complete,
        otherwise attach the listener and arm the timer. */
    constructor (gathering: GatheringState, timeoutMs: int)
      ensures Valid() && events == [] && this.timeoutMs == timeoutMs
      ensures startedComplete == (gathering == Complete)
      ensures resolutions == (if gathering == Complete then 1 else 0)
      ensures listening == timerPending == (gathering != Complete)
    {
      this.timeoutMs := timeoutMs;
      startedComplete := gathering == Complete;
      events := [];
      resolved := false;
      if gathering == Complete {
        listening, timerPending := false, false;
        resolutions, cause := 1, Some(AlreadyComplete);
      } else {
        listening, timerPending := true, true;
        resolutions, cause := 0, None;
      }
    }

    /** `icegatheringstatechange`, with the state the connection now
        reports. Only an attached `checkState` sees it, and it resolves the
        wait only on `'complete'`. */
    method OnGatheringChange(state: GatheringState)
      requires Valid()
      modifies this
      ensures Valid() && events == old(events) + [GatheringChange(state)]
      ensures timerPending == old(timerPending)
      ensures old(cause).Some? ==> cause == old(cause) && resolutions == old(resolutions)
      ensures old(cause).None? ==>
        cause == (if state == Complete then Some(GatheringDone) else None)
    {
      ResolutionStep(startedComplete, events, GatheringChange(state));
      events := events + [GatheringChange(state)];
      if listening && !resolved && state == Complete {
        resolved := true;
        listening := false;
        resolutions := resolutions + 1;
        cause := Some(GatheringDone);
      }
    }

    /** The timeout callback: resolves the wait unless it already resolved. */
    method OnTimeout()
      requires Valid() && timerPending
      modifies this
      ensures Valid() && events == old(events) + [TimerFired]
      ensures !timerPending && !listening && resolutions == 1
      ensures cause == if old(cause).Some? then old(cause) else Some(TimedOut)
    {
      ResolutionStep(startedComplete, events, TimerFired);
      events := events + [TimerFired];
      timerPending := false;
      if !resolved {
        resolved := true;
        listening := false;
        resolutions := resolutions + 1;
        cause := Some(TimedOut);
      }
    }
  }

  // ---------------------------------------------------------------------
  // The session manager
  // ---------------------------------------------------------------------

  /** The candidates a run of `onicecandidate` events collects: every
      non-null candidate, in arrival order. */
  function Gathered(events: seq<Option<Candidate>>): seq<Candidate> {
    if events == [] then []
    else
      var tail := match events[|events| - 1] case Some(c) => [c] case None => [];
      Gathered(events[..|events| - 1]) + tail
  }

  /** Collecting is compositional: two runs of events collect what each
      run collects, in order. */
  lemma {:induction false} GatheredAppend(a: seq<Option<Candidate>>, b: seq<Option<Candidate>>)
    ensures Gathered(a + b) == Gathered(a) + Gathered(b)
  {
    if b != [] {
      var front := b[..|b| - 1];
      assert (a + b)[..|a + b| - 1] == a + front;
      assert (a + b)[|a + b| - 1] == b[|b| - 1];
      GatheredAppend(a, front);
    } else {
      assert a + b == a;
    }
  }

  /** Every collected candidate came from a non-null event, and no more
      candidates are collected than events arrived. */
  lemma {:induction false} GatheredFromEvents(events: seq<Option<Candidate>>)
    ensures |Gathered(events)| <= |events|
    ensures forall c :: c in Gathered(events) ==> Some(c) in events
  {
    if events != [] {
      var front := events[..|events| - 1];
      GatheredFromEvents(front);
      assert forall c :: Some(c) in front ==> Some(c) in events;
    }
  }

  /** A transport object the manager called `close()` on. */
  datatype Release = ChannelReleased | PeerReleased

  /** The order of the `close()` calls one `close` makes. */
  function ReleaseOrder(hadChannel: bool, hadPeer: bool): (r: seq<Release>)
    ensures |r| == (if hadChannel then 1 else 0) + (if hadPeer then 1 else 0)
    ensures hadChannel ==> r[0] == ChannelReleased
    ensures hadPeer ==> r[|r| - 1] == PeerReleased
  {
    (if hadChannel then [ChannelReleased] else []) + (if hadPeer then [PeerReleased] else [])
  }

  /** What a manager reports when asked for its connection state without a
      connection. */
  const NotInitialized := "not-initialized"

  /** The errors a negotiation step raises: the `TypeError` of a call on a
      missing connection, and the `TypeError` of `new RTCSessionDescription`
      on a payload whose `sdp` is `null` (its required `type` is absent). */
  datatype SessionError = NoPeerConnection | InvalidDescription

  /** What `createOffer` and `processOfferAndCreateAnswer` hold across their
      wait: the wait itself, and the `type` and `username` they package
      once it resolves. */
  datatype Suspended = Suspended(wait: CandidateWait, kind: PayloadKind, username: string)

  class WebRTCManager {
    /** The STUN servers handed to every new connection. */
    const iceServers: seq<string>

    var peerConnection: Option<Peer>
    var dataChannel: Option<Channel>
    var iceCandidates: seq<Candidate>
    /** `onDataChannelMessage` is set. */
    var hasMessageListener: bool
    /** `onConnectionStateChange` is set. */
    var hasStateListener: bool
    var localUsername: string
    var remoteUsername: string

    /** The `close()` calls made on transport objects, in order. */
    var released: seq<Release>
    /** The records passed to `dataChannel.send`, in order. */
    var sent: seq<ChatRecord>
    /** The values passed to `onConnectionStateChange`, in order. */
    var reports: seq<string>
    /** The records passed to `onDataChannelMessage`, in order. */
    var delivered: seq<ChatRecord>

    /** The `onicecandidate` events of the current connection. */
    ghost var candidateEvents: seq<Option<Candidate>>

    ghost predicate Valid()
      reads this
    {
      && (peerConnection.None? ==> dataChannel.None? && candidateEvents == [])
      && iceCandidates == Gathered(candidateEvents)
    }

    constructor ()
      ensures Valid()
      ensures iceServers == ["stun:stun.l.google.com:19302", "stun:stun1.l.google.com:19302"]
      ensures peerConnection.None? && dataChannel.None? && iceCandidates == []
      ensures !hasMessageListener && !hasStateListener
      ensures localUsername == "" && remoteUsername == ""
      ensures released == [] && sent == [] && reports == [] && delivered == []
    {
      iceServers := ["stun:stun.l.google.com:19302", "stun:stun1.l.google.com:19302"];
      peerConnection, dataChannel, iceCandidates := None, None, [];
      hasMessageListener, hasStateListener := false, false;
      localUsername, remoteUsername := "", "";
      released, sent, reports, delivered := [], [], [], [];
      candidateEvents := [];
    }

    /** A new connection replaces the current one (which is not closed) and
        the candidate list starts empty; the data channel is kept. */
    method InitPeerConnection()
      requires Valid()
      modifies this
      ensures Valid()
      ensures peerConnection == Some(NewPeer()) && iceCandidates == [] && candidateEvents == []
      ensures dataChannel == old(dataChannel) && released == old(released)
      ensures localUsername == old(localUsername) && remoteUsername == old(remoteUsername)
      ensures hasMessageListener == old(hasMessageListener) && hasStateListener == old(hasStateListener)
      ensures sent == old(sent) && reports == old(reports) && delivered == old(delivered)
    {
      peerConnection := Some(NewPeer());
      iceCandidates := [];
      candidateEvents := [];
    }

    /** `onicecandidate`: a candidate is appended, the end-of-candidates
        `null` adds nothing. */
    method OnIceCandidate(candidate: Option<Candidate>)
      requires Valid() && peerConnection.Some?
      modifies this`iceCandidates, this`candidateEvents
      ensures Valid() && candidateEvents == old(candidateEvents) + [candidate]
      ensures iceCandidates == old(iceCandidates) + (if candidate.Some? then [candidate.value] else [])
    {
      assert (candidateEvents + [candidate])[..|candidateEvents|] == candidateEvents;
      candidateEvents := candidateEvents + [candidate];
      if candidate.Some? {
        iceCandidates := iceCandidates + [candidate.value];
      }
    }

    /** The connection's gathering state changes. The manager has no handler
        of its own; a pending wait's listener is a separate event, delivered
        to the wait by `CandidateWait.OnGatheringChange`. */
    method OnGatheringStateChange(state: GatheringState)
      requires Valid() && peerConnection.Some?
      modifies this`peerConnection
      ensures Valid() && peerConnection == Some(old(peerConnection.value).(gathering := state))
    {
      peerConnection := Some(peerConnection.value.(gathering := state));
    }

    /** `onconnectionstatechange`: the new state is forwarded by name when a
        listener is set. */
    method OnConnectionStateChange(state: ConnectionState)
      requires Valid() && peerConnection.Some?
      modifies this`peerConnection, this`reports
      ensures Valid() && peerConnection == Some(old(peerConnection.value).(connection := state))
      ensures reports == old(reports) + (if hasStateListener then [ConnectionStateName(state)] else [])
    {
      peerConnection := Some(peerConnection.value.(connection := state));
      if hasStateListener {
        reports := reports + [ConnectionStateName(state)];
      }
    }

    /** The offerer's outbound channel, labelled `'chat'`, with the manager's
        handlers attached; records the local user name. */
    method CreateDataChannel(username: string) returns (channel: Channel)
      requires Valid() && peerConnection.Some?
      modifies this`localUsername, this`dataChannel
      ensures Valid() && localUsername == username
      ensures channel == Channel("chat", Connecting, true) && dataChannel == Some(channel)
    {
      localUsername := username;
      dataChannel := Some(NewChannel("chat"));
      SetupDataChannel();
      channel := dataChannel.value;
    }

    /** Attaches the open, close and message handlers to the channel. */
    method SetupDataChannel()
      requires Valid() && dataChannel.Some?
      modifies this`dataChannel
      ensures Valid() && dataChannel == Some(old(dataChannel.value).(handled := true))
    {
      dataChannel := Some(dataChannel.value.(handled := true));
    }

    /** The channel's `open` event: reported as `'connected'` when a
        listener is set. */
    method OnChannelOpen()
      requires Valid() && dataChannel.Some?
      modifies this`dataChannel, this`reports
      ensures Valid() && dataChannel == Some(old(dataChannel.value).(readyState := Open))
      ensures reports == old(reports) +
        (if old(dataChannel.value).handled && hasStateListener then ["connected"] else [])
    {
      var handled := dataChannel.value.handled;
      dataChannel := Some(dataChannel.value.(readyState := Open));
      if handled && hasStateListener {
        reports := reports + ["connected"];
      }
    }

    /** The channel's `close` event: reported as `'disconnected'` when a
        listener is set. */
    method OnChannelClose()
      requires Valid() && dataChannel.Some?
      modifies this`dataChannel, this`reports
      ensures Valid() && dataChannel == Some(old(dataChannel.value).(readyState := Closed))
      ensures reports == old(reports) +
        (if old(dataChannel.value).handled && hasStateListener then ["disconnected"] else [])
    {
      var handled := dataChannel.value.handled;
      dataChannel := Some(dataChannel.value.(readyState := Closed));
      if handled && hasStateListener {
        reports := reports + ["disconnected"];
      }
    }

    /** The channel's `message` event: the data is parsed (by an external
        parser) and handed on when a listener is set. */
    method OnChannelMessage(data: string, parse: string -> ChatRecord)
      requires Valid() && dataChannel.Some?
      modifies this`delivered
      ensures delivered == old(delivered) +
        (if dataChannel.value.handled && hasMessageListener then [parse(data)] else [])
    {
      if dataChannel.value.handled && hasMessageListener {
        delivered := delivered + [parse(data)];
      }
    }

    /** `ondatachannel`: the answerer adopts the channel the offerer opened;
        a connection without that handler ignores the event. */
    method OnInboundChannel(name: string, state: ReadyState)
      requires Valid() && peerConnection.Some?
      modifies this`dataChannel
      ensures Valid()
      ensures dataChannel == if peerConnection.value.acceptsInbound
        then Some(Channel(name, state, true)) else old(dataChannel)
    {
      if peerConnection.value.acceptsInbound {
        dataChannel := Some(Channel(name, state, false));
        SetupDataChannel();
      }
    }

    /** Begins the bounded wait against the connection's current gathering
        state. */
    method WaitForInitialCandidates(timeoutMs: int) returns (wait: CandidateWait)
      requires Valid() && peerConnection.Some?
      ensures fresh(wait) && wait.Valid() && wait.events == [] && wait.timeoutMs == timeoutMs
      ensures wait.startedComplete == (peerConnection.value.gathering == Complete)
    {
      wait := new CandidateWait(peerConnection.value.gathering, timeoutMs);
    }

    /** `createOffer` up to its wait: a new connection, the outbound channel,
        the offer as local description; `gatheringAtWait` is the gathering
        state the connection reports when the wait begins. */
    method CreateOffer(username: string, offer: Description, gatheringAtWait: GatheringState)
      returns (pending: Suspended)
      requires Valid()
      modifies this
      ensures Valid() && localUsername == username && remoteUsername == old(remoteUsername)
      ensures peerConnection == Some(Peer(gatheringAtWait, Fresh, Some(offer), None, false))
      ensures dataChannel == Some(Channel("chat", Connecting, true)) && iceCandidates == []
      ensures released == old(released) && sent == old(sent) && reports == old(reports)
      ensures delivered == old(delivered)
      ensures hasMessageListener == old(hasMessageListener) && hasStateListener == old(hasStateListener)
      ensures pending.kind == Offer && pending.username == username
      ensures fresh(pending.wait) && pending.wait.Valid() && pending.wait.events == [] && pending.wait.timeoutMs == 500
      ensures pending.wait.startedComplete == (gatheringAtWait == Complete)
    {
      InitPeerConnection();
      var _ := CreateDataChannel(username);
      peerConnection := Some(peerConnection.value.(local := Some(offer), gathering := gatheringAtWait));
      var wait := WaitForInitialCandidates(500);
      pending := Suspended(wait, Offer, username);
    }

    /** `processOfferAndCreateAnswer` up to its wait: a new connection that
        accepts the inbound channel, both user names, the offer's description
        as remote and the answer as local description. A payload without a
        description stops the call after the names are recorded. The
        payload's kind is not checked here (its callers check it). */
    method ProcessOfferAndCreateAnswer(offerData: Payload, username: string, answer: Description,
                                      gatheringAtWait: GatheringState)
      returns (r: Result<Suspended, SessionError>)
      requires Valid()
      modifies this
      ensures Valid() && localUsername == username && remoteUsername == offerData.username
      ensures r.Err? <==> offerData.sdp.None?
      ensures r.Err? ==> r.error == InvalidDescription && peerConnection == Some(NewPeer().(acceptsInbound := true))
      ensures r.Ok? ==> peerConnection == Some(Peer(gatheringAtWait, Fresh, Some(answer), offerData.sdp, true))
      ensures dataChannel == old(dataChannel) && iceCandidates == []
      ensures released == old(released) && sent == old(sent) && reports == old(reports)
      ensures delivered == old(delivered)
      ensures hasMessageListener == old(hasMessageListener) && hasStateListener == old(hasStateListener)
      ensures r.Ok? ==> r.value.kind == Answer && r.value.username == username
      ensures r.Ok? ==>
        && fresh(r.value.wait) && r.value.wait.Valid() && r.value.wait.events == [] && r.value.wait.timeoutMs == 500
        && r.value.wait.startedComplete == (gatheringAtWait == Complete)
    {
      InitPeerConnection();
      localUsername := username;
      remoteUsername := offerData.username;
      peerConnection := Some(peerConnection.value.(acceptsInbound := true));
      if offerData.sdp.None? {
        return Err(InvalidDescription);
      }
      peerConnection := Some(peerConnection.value.(remote := offerData.sdp));
      peerConnection := Some(peerConnection.value.(local := Some(answer), gathering := gatheringAtWait));
      var wait := WaitForInitialCandidates(500);
      r := Ok(Suspended(wait, Answer, username));
    }

    /** The end of `createOffer` and of `processOfferAndCreateAnswer`, once
        their wait has resolved: `{type, username, sdp}` with the type and
        name the suspended call holds and the current local description. */
    method PackageDescription(pending: Suspended) returns (r: Result<Payload, SessionError>)
      requires pending.wait.Valid() && pending.wait.resolutions == 1
      ensures r.Err? <==> peerConnection.None?
      ensures r.Err? ==> r.error == NoPeerConnection
      ensures r.Ok? ==> r.value.kind == pending.kind && r.value.username == pending.username
      ensures r.Ok? ==> r.value.sdp == peerConnection.value.local
    {
      if peerConnection.None? {
        return Err(NoPeerConnection);
      }
      r := Ok(Payload(pending.kind, pending.username, peerConnection.value.local));
    }

    /** `processAnswer`: records the peer's name (also when the call fails,
        as the assignment comes first) and applies the answer's description
        as remote description. A missing connection fails first; a payload
        without a description fails next. */
    method ProcessAnswer(answerData: Payload) returns (r: Outcome<SessionError>)
      requires Valid()
      modifies this`remoteUsername, this`peerConnection
      ensures Valid() && remoteUsername == answerData.username
      ensures r.Fail? <==> old(peerConnection).None? || answerData.sdp.None?
      ensures r.Fail? ==> r.error == if old(peerConnection).None? then NoPeerConnection else InvalidDescription
      ensures peerConnection == if r.Fail? then old(peerConnection)
        else Some(old(peerConnection.value).(remote := answerData.sdp))
    {
      remoteUsername := answerData.username;
      if peerConnection.None? {
        return Fail(NoPeerConnection);
      }
      if answerData.sdp.None? {
        return Fail(InvalidDescription);
      }
      peerConnection := Some(peerConnection.value.(remote := answerData.sdp));
      r := Pass;
    }

    /** `sendMessage`: one record `{type: 'message', username, message,
        timestamp}` goes out exactly when the channel is open. */
    method SendMessage(message: string, now: int) returns (ok: bool)
      requires Valid()
      modifies this`sent
      ensures ok <==> IsOpen(dataChannel)
      ensures sent == old(sent) + (if ok then [ChatRecord(localUsername, message, now)] else [])
    {
      if IsOpen(dataChannel) {
        sent := sent + [ChatRecord(localUsername, message, now)];
        return true;
      }
      return false;
    }

    /** `getConnectionState`: `'not-initialized'` exactly when there is no
        connection, otherwise the connection's own state name. */
    function GetConnectionState(): (s: string)
      reads this
      ensures s == NotInitialized <==> peerConnection.None?
      ensures peerConnection.Some? ==> s == ConnectionStateName(peerConnection.value.connection)
    {
      if peerConnection.None? then NotInitialized
      else ConnectionStateName(peerConnection.value.connection)
    }

    /** `close`: releases the channel, then the connection, and forgets the
        candidates; with nothing held it releases nothing. */
    method Close()
      requires Valid()
      modifies this`dataChannel, this`peerConnection, this`iceCandidates, this`candidateEvents, this`released
      ensures Valid()
      ensures dataChannel.None? && peerConnection.None? && iceCandidates == []
      ensures released == old(released) + ReleaseOrder(old(dataChannel).Some?, old(peerConnection).Some?)
      ensures GetConnectionState() == NotInitialized
    {
      if dataChannel.Some? {
        released := released + [ChannelReleased];
        dataChannel := None;
      }
      if peerConnection.Some? {
        released := released + [PeerReleased];
        peerConnection := None;
      }
      iceCandidates := [];
      candidateEvents := [];
    }
  }

  /** Closing twice releases each object once: the second call finds
      nothing to release. */
  method CloseTwice(m: WebRTCManager)
    requires m.Valid()
    modifies m
    ensures m.Valid() && m.peerConnection.None? && m.dataChannel.None?
    ensures m.released == old(m.released) + ReleaseOrder(old(m.dataChannel).Some?, old(m.peerConnection).Some?)
  {
    m.Close();
    var once := m.released;
    m.Close();
    assert m.released == once;
  }
}

=== FILE: transport.dfy ===
/** The browser's peer-connection capability, seen from the outside. The
    client never implements negotiation; it only observes a handful of
    states and reacts to notifications, so a connection and a data channel
    are values here and every notification is an explicit event. */
module Transport {
  import opened Base

  /** `RTCDataChannel.readyState`. */
  datatype ReadyState = Connecting | Open | Closing | Closed

  /** `RTCPeerConnection.iceGatheringState`. */
  datatype GatheringState = NotStarted | Gathering | Complete

  /** `RTCPeerConnection.connectionState`. */
  datatype ConnectionState = Fresh | Negotiating | Connected | Disconnected | Failed | Shut

  /** The string the browser reports for a connection state. */
  function ConnectionStateName(s: ConnectionState): (name: string)
    ensures name in {"new", "connecting", "connected", "disconnected", "failed", "closed"}
    ensures name == "connected" <==> s == Connected
  {
    match s
    case Fresh => "new"
    case Negotiating => "connecting"
    case Connected => "connected"
    case Disconnected => "disconnected"
    case Failed => "failed"
    case Shut => "closed"
  }

  /** What the client can observe of one peer connection: its gathering and
      connection states, the descriptions set on it, and whether a handler
      for inbound data channels was registered (`ondatachannel`). */
  datatype Peer = Peer(
    gathering: GatheringState,
    connection: ConnectionState,
    local: Option<Description>,
    remote: Option<Description>,
    acceptsInbound: bool)

  /** A connection as `new RTCPeerConnection(config)` returns it. */
  function NewPeer(): (p: Peer)
    ensures p.gathering == NotStarted && p.connection == Fresh
    ensures p.local.None? && p.remote.None? && !p.acceptsInbound
  {
    Peer(NotStarted, Fresh, None, None, false)
  }

  /** A data channel: its name, its ready state, and whether the client
      attached its open/close/message handlers to it. */
  datatype Channel = Channel(name: string, readyState: ReadyState, handled: bool)

  /** A channel as `createDataChannel(name)` returns it, before any
      handler is attached. */
  function NewChannel(name: string): (c: Channel)
    ensures c.name == name && c.readyState == Connecting && !c.handled
  {
    Channel(name, Connecting, false)
  }

  /** The guard both clients put in front of `send`: a channel exists and
      its ready state is `'open'`. */
  predicate IsOpen(channel: Option<Channel>): (r: bool)
    ensures r ==> channel.Some?
    ensures channel.Some? ==> (r <==> channel.value.readyState == Open)
  {
    channel.Some? && channel.value.readyState == Open
  }
}

=== FILE: url_fragment.dfy ===
/** The shareable-link helpers of the single-file client: a negotiation
    payload travels in the fragment of the page's URL (section 3.5 of
    RFC 3986) as `#offer=<text>` or `#answer=<text>`, where the text is the
    payload after an external compressor made it URL-safe. */
module UrlFragment {
  import opened Base
  import opened JsString

  /** `window.location.hash` for a URL: `'#'` followed by the fragment, or
      the empty string when the URL has no fragment or an empty one. */
  function LocationHash(url: string): (h: string)
    ensures h != [] ==> |h| >= 2 && h[0] == '#' && url == BeforeFirst(url, '#') + h
    ensures h == [] ==> |BeforeFirst(url, '#')| >= |url| - 1
  {
    var base := BeforeFirst(url, '#');
    if |base| + 1 >= |url| then [] else url[|base|..]
  }

  /** `encodeToURL`: the page address up to its first `'#'`, followed by
      `#<type>=<compressed payload>`. */
  function EncodeToUrl(href: string, json: string, kind: PayloadKind, compress: string -> string): (url: string)
    ensures BeforeFirst(url, '#') == BeforeFirst(href, '#')
    ensures LocationHash(url) == Prefix(kind) + compress(json)
  {
    var base := BeforeFirst(href, '#');
    HashOfJoin(base, Prefix(kind) + compress(json));
    base + (Prefix(kind) + compress(json))
  }

  /** A URL made of a `'#'`-free address and a fragment part that starts
      with `'#'` keeps that address before its first `'#'`; its hash is the
      fragment part when something follows the `'#'`, and empty for a bare
      `'#'`. */
  lemma HashOfJoin(base: string, rest: string)
    requires '#' !in base && rest != [] && rest[0] == '#'
    ensures BeforeFirst(base + rest, '#') == base
    ensures |rest| >= 2 ==> LocationHash(base + rest) == rest
    ensures |rest| == 1 ==> LocationHash(base + rest) == []
  {
    var url := base + rest;
    assert url == base + ['#'] + rest[1..];
    BeforeFirstJoin(base, '#', rest[1..]);
    assert BeforeFirst(url, '#') == base;
    if |rest| >= 2 {
      assert |url| == |base| + |rest|;
      assert url[|base|..] == rest;
      assert LocationHash(url) == url[|base|..];
    } else {
      assert |url| == |base| + 1;
    }
  }

  /** The literal part `#offer=` or `#answer=` of the pattern, which is also
      what `encodeToURL` writes before the compressed payload. */
  function Prefix(kind: PayloadKind): (p: string)
    ensures |p| >= 7 && p[0] == '#' && p[|p| - 1] == '='
  {
    match kind
    case Offer => "#offer="
    case Answer => "#answer="
  }

  /** Between its `'#'` and its `'='`, the literal part spells the payload's
      `type`. */
  lemma PrefixSpellsKind(kind: PayloadKind)
    ensures Prefix(kind)[1..|Prefix(kind)| - 1] == KindName(kind)
  {
  }

  /** The pattern `#(offer|answer)=(.+)` matches at position `i` with the
      given kind: the literal part is there and at least one character
      other than a line terminator follows it. */
  predicate MatchesAt(h: string, i: int, kind: PayloadKind) {
    var p := Prefix(kind);
    0 <= i && i + |p| < |h| && LiteralAt(h, i, p) && !IsLineTerminator(h[i + |p|])
  }

  /** The characters of `p` are written in `h` from position `i` on. */
  predicate LiteralAt(h: string, i: nat, p: string)
    decreases |p|
  {
    p == [] || (i < |h| && h[i] == p[0] && LiteralAt(h, i + 1, p[1..]))
  }

  /** `LiteralAt` is the slice comparison `h[i..i + |p|] == p`. */
  lemma {:induction false} LiteralAtSlice(h: string, i: nat, p: string)
    requires i + |p| <= |h|
    decreases |p|
    ensures LiteralAt(h, i, p) <==> h[i..i + |p|] == p
  {
    if p != [] {
      LiteralAtSlice(h, i + 1, p[1..]);
      assert h[i..i + |p|] == [h[i]] + h[i + 1..i + 1 + |p[1..]|];
      assert p == [p[0]] + p[1..];
    }
  }

  /** Matching at a position is finding the literal part there, followed
      by a character other than a line terminator. */
  lemma MatchesAtLiteral(h: string, i: nat, kind: PayloadKind)
    ensures MatchesAt(h, i, kind) <==>
      var p := Prefix(kind);
      && i + |p| < |h| && h[i..i + |p|] == p && !IsLineTerminator(h[i + |p|])
  {
    if i + |Prefix(kind)| < |h| {
      LiteralAtSlice(h, i, Prefix(kind));
    }
  }

  /** The pattern matches at position `j` with neither kind. */
  predicate NoMatchAt(h: string, j: int) {
    !MatchesAt(h, j, Offer) && !MatchesAt(h, j, Answer)
  }

  /** What the greedy `.+` takes: the longest prefix without a line
      terminator. */
  function LineRun(s: string): (r: string)
    ensures |r| <= |s| && r == s[..|r|]
    ensures forall i :: 0 <= i < |r| ==> !IsLineTerminator(r[i])
    ensures |r| < |s| ==> IsLineTerminator(s[|r|])
  {
    if s == [] || IsLineTerminator(s[0]) then [] else [s[0]] + LineRun(s[1..])
  }

  /** A match: where it starts and `match[1]`. */
  datatype Match = Match(index: nat, kind: PayloadKind)

  /** The leftmost match at or after position `i`; at one position the
      alternative `offer` is tried before `answer`. */
  function SearchFrom(h: string, i: nat): (r: Option<Match>)
    requires i <= |h|
    decreases |h| - i
    ensures r.Some? ==> i <= r.value.index && MatchesAt(h, r.value.index, r.value.kind)
    ensures r.Some? ==> forall j :: i <= j < r.value.index ==> NoMatchAt(h, j)
    ensures r.None? ==> forall j :: i <= j <= |h| ==> NoMatchAt(h, j)
  {
    if MatchesAt(h, i, Offer) then Some(Match(i, Offer))
    else if MatchesAt(h, i, Answer) then Some(Match(i, Answer))
    else if i == |h| then None
    else SearchFrom(h, i + 1)
  }

  /** `match[2]`: what the greedy `.+` takes after the literal part of a
      match; it is never empty. */
  function MatchText(h: string, m: Match): (t: string)
    requires MatchesAt(h, m.index, m.kind)
    ensures var start := m.index + |Prefix(m.kind)|;
      && t != [] && start + |t| <= |h| && h[start..start + |t|] == t
      && (forall k :: 0 <= k < |t| ==> !IsLineTerminator(t[k]))
      && (start + |t| < |h| ==> IsLineTerminator(h[start + |t|]))
  {
    LineRun(h[m.index + |Prefix(m.kind)|..])
  }

  /** The result of `decodeFromURL`: the payload kind and the decompressed
      text (whatever the external decompressor returns). */
  datatype UrlData<J> = UrlData(kind: PayloadKind, json: J)

  /** `decodeFromURL` applied to a location hash: nothing for an empty hash
      or one without a match; otherwise the kind of the leftmost match and
      the decompression of its text. */
  function DecodeFromUrl<J>(hash: string, decompress: string -> J): (r: Option<UrlData<J>>)
    ensures hash == [] ==> r.None?
    ensures r.None? <==> forall j :: 0 <= j <= |hash| ==> NoMatchAt(hash, j)
    ensures r.Some? ==> SearchFrom(hash, 0).Some?
    ensures r.Some? ==> var m := SearchFrom(hash, 0).value;
      r.value.kind == m.kind && r.value.json == decompress(MatchText(hash, m))
  {
    if hash == [] then None
    else match SearchFrom(hash, 0)
      case None => None
      case Some(m) =>
        assert !NoMatchAt(hash, m.index);
        Some(UrlData(m.kind, decompress(MatchText(hash, m))))
  }

  /** A hash made of the literal part of a kind and a non-empty text free
      of line terminators matches at its start, and the match's text is all
      of that text. */
  lemma MatchOfPrefixed(kind: PayloadKind, c: string)
    requires c != []
    requires forall i :: 0 <= i < |c| ==> !IsLineTerminator(c[i])
    ensures SearchFrom(Prefix(kind) + c, 0) == Some(Match(0, kind))
    ensures MatchText(Prefix(kind) + c, Match(0, kind)) == c
  {
    var h := Prefix(kind) + c;
    PrefixedMatchesAtStart(kind, c);
    if kind == Answer {
      OfferAbsentFromAnswer(c);
    }
    SearchAtStart(h, kind);
    RunOfLine(c);
    assert h[|Prefix(kind)|..] == c;
  }

  /** When the pattern matches at position 0 with a kind, and `offer` does
      not match there when the kind is `answer`, the search stops at 0. */
  lemma SearchAtStart(h: string, kind: PayloadKind)
    requires MatchesAt(h, 0, kind)
    requires kind == Answer ==> !MatchesAt(h, 0, Offer)
    ensures SearchFrom(h, 0) == Some(Match(0, kind))
  {
  }

  /** `#offer=` does not match where `#answer=` is written. */
  lemma OfferAbsentFromAnswer(c: string)
    ensures !MatchesAt(Prefix(Answer) + c, 0, Offer)
  {
    var h := Prefix(Answer) + c;
    assert h[1] == 'a';
    assert !LiteralAt(h, 1, Prefix(Offer)[1..]);
  }

  /** The pattern matches a literal part followed by a non-empty text at
      position 0, with that kind. */
  lemma PrefixedMatchesAtStart(kind: PayloadKind, c: string)
    requires c != [] && !IsLineTerminator(c[0])
    ensures MatchesAt(Prefix(kind) + c, 0, kind)
  {
    var p := Prefix(kind);
    var h := p + c;
    assert h[0..|p|] == p;
    LiteralAtSlice(h, 0, p);
    assert h[|p|] == c[0];
  }

  /** A text free of line terminators is taken whole by `.+`. */
  lemma RunOfLine(c: string)
    requires forall i :: 0 <= i < |c| ==> !IsLineTerminator(c[i])
    ensures LineRun(c) == c
  {
    var run := LineRun(c);
    assert |run| == |c|;
  }

  /** The alphabet of `LZString.compressToEncodedURIComponent`: ASCII
      letters, digits, `+`, `-` and `$`. A URL parser leaves these
      characters of a fragment as they are. */
  predicate IsEncodedUriChar(c: char) {
    ('A' <= c <= 'Z') || ('a' <= c <= 'z') || ('0' <= c <= '9') || c == '+' || c == '-' || c == '$'
  }

  /** A link made by `encodeToURL` whose compressed text is non-empty and
      drawn from the compressor's alphabet decodes to the same kind and the
      same compressed text. */
  lemma EncodeThenDecode<J>(href: string, json: string, kind: PayloadKind,
                            compress: string -> string, decompress: string -> J)
    requires compress(json) != []
    requires forall i :: 0 <= i < |compress(json)| ==> IsEncodedUriChar(compress(json)[i])
    ensures DecodeFromUrl(LocationHash(EncodeToUrl(href, json, kind, compress)), decompress)
      == Some(UrlData(kind, decompress(compress(json))))
  {
    var c := compress(json);
    assert forall i :: 0 <= i < |c| ==> !IsLineTerminator(c[i]);
    var h := LocationHash(EncodeToUrl(href, json, kind, compress));
    assert h == Prefix(kind) + c;
    MatchOfPrefixed(kind, c);
  }
}
